=== FILE: README.md ===
# BigQuery policy-tag sync, modelled in Dafny

The system reads Dataform declaration files from a workspace and makes the column
policy tags of the BigQuery tables they declare match the tags the files ask for.
One run works like this:

- It walks the workspace's base folder (`get_files`, `request_directory`).
- It keeps the files whose text contains `type:`, one whitespace character and
  `"declaration"`.
- It parses each kept file (`parse_file`): it slices from the first `{`, quotes the
  bare keys and decodes the JSON.
- It builds each file's table id `database.schema.name`, where `database` defaults
  to the project.
- For each declared table, in turn:
  - it reads the table's column-to-tags map (`get_bigquery_table_config`);
  - it diffs the declared and current tags of each column that exists and declares
    `bigqueryPolicyTags` (`compare_policy_tag_lists`);
  - only when some column differs, it rewrites that table's schema with the tag
    changes folded in (`sync_bigquery_column_policy_tags`).

The model is purely functional:

- The BigQuery side is a value, `Warehouse.Warehouse`: a map from table id to schema,
  plus the set of tables whose updates fail.
- A step returns a `Run`: its status, the warehouse afterwards, and the trace of
  `get_table`/`update_table` calls it issued.
- The Dataform side is a directory-tree value (`Dataform.Listing`) and a map from path
  to file contents.
- `json.loads` is a parameter `decode`, and so is `repr` for list or dict values
  formatted into a table id.
- Every Python exception the code raises, or logs and re-raises, becomes an `Err` of
  `Results.Error`, and the run stops there.

Modules:

- `Results`: the Option/Result wrappers and the error values.
- `TagOrder`: Python's `<` on `str`, and `sorted(set(...))`, whose result is proved
  to be the unique strictly sorted listing of a set.
- `TagDiff`: `compare_policy_tag_lists`, plus the per-column fold of "add" and
  "remove" actions from the sync.
- `Schema`: schema fields, the schema rebuild and the name-to-tags config map.
- `Warehouse`: `get_bigquery_table_config` and `sync_bigquery_column_policy_tags`
  over the warehouse value.
- `KeyQuote`: the `re.sub(r'(\w+)\s*:', r'"\1":', ...)` rewrite.
- `Dataform`: `parse_file`, `request_directory` and `get_files`.
- `Declarations`: the declaration filter, the required-key checks and the table id.
- `Process`: the change map, the write decision and `validate_and_apply` end to end.

Two behaviours of the program that the model keeps:

- A failed table lookup aborts the whole run, not just that table: process.py:77
  has no per-table handler.
- The walk collects paths depth-first, in page and entry order.

## Model

| member | source | states |
|---|---|---|
| TagDiff.ComparePolicyTagLists | function/bq_taxonomy/bigquery.py:106-144 | `identical` (the `match` flag) holds iff the two lists hold the same set of tags, iff there are no changes. The changes are all "add" entries followed by all "remove" entries. The add names are strictly sorted and are exactly set(desired) − set(current); the remove names are strictly sorted and are exactly set(current) − set(desired). |
| TagDiff.DiffDependsOnSetsOnly | function/bq_taxonomy/bigquery.py:123-136 | Two calls whose inputs have the same sets of tags return the same diff, so order and duplicates in either list play no part. |
| TagDiff.DiffNamesDistinct | function/bq_taxonomy/bigquery.py:123-136 | No tag name occurs in two entries of a diff: none is added twice, removed twice, or both added and removed. |
| TagDiff.Minus | function/bq_taxonomy/bigquery.py:127-130 | The list stands for a set difference: its elements are exactly set(xs) − set(ys). |
| TagOrder.SortedSet | function/bq_taxonomy/bigquery.py:133-135 | `sorted(set(xs))` is strictly increasing under Python's string order and holds exactly the elements of xs. |
| TagOrder.SortedUnique | function/bq_taxonomy/bigquery.py:127-135 | A set has exactly one strictly sorted listing, so the set's iteration order never shows through `sorted`. |
| TagOrder.BelowTotal | function/bq_taxonomy/bigquery.py:133-135 | Python's `<` on strings orders any two distinct strings one way or the other. |
| TagDiff.ApplyChange | function/bq_taxonomy/bigquery.py:44-76 | "add" leaves the list as it is when the tag is already there, and otherwise appends it: the old list stays a prefix and the tag joins the set. "remove" drops the tag's first occurrence; on a duplicate-free list it takes exactly that tag out of the set. Any other action leaves the list unchanged. A duplicate-free list stays duplicate-free. |
| TagDiff.RemoveFirstSplits | function/bq_taxonomy/bigquery.py:61-62 | `tags.remove(t)` on a present tag cuts out exactly the first occurrence; the elements before and after it keep their order. |
| TagDiff.RemoveFirstNoDup | function/bq_taxonomy/bigquery.py:61-62 | On a duplicate-free list, removal keeps the list duplicate-free and takes exactly that tag out of the set. |
| TagDiff.ApplyChangesUntouched | function/bq_taxonomy/bigquery.py:44-76 | A tag that no change names is in the folded list iff it was in the starting list. |
| TagDiff.DiffReconciles | function/bq_taxonomy/bigquery.py:44-76 | Folding compare_policy_tag_lists(desired, current)'s changes over a duplicate-free current list gives a duplicate-free list whose set is exactly set(desired). |
| TagDiff.ApplyChangesSettles | function/bq_taxonomy/bigquery.py:44-76 | On a duplicate-free tag list, after folding changes that name distinct tags, every "add" tag is present and every "remove" tag is absent. |
| TagDiff.ApplyChangesNoOp | function/bq_taxonomy/bigquery.py:44-76 | Folding over a list that already has every "add" tag and lacks every "remove" tag returns the list unchanged. |
| TagDiff.ApplyChangesIdempotent | function/bq_taxonomy/bigquery.py:44-76 | On a duplicate-free tag list, folding changes that name distinct tags a second time leaves the list exactly as the first fold left it. |
| TagDiff.DiffIdempotent | function/bq_taxonomy/bigquery.py:44-76 | When the current tag list has no duplicates, a diff's changes folded a second time over the reconciled list change nothing. |
| Schema.PolicyTagsFor | function/bq_taxonomy/bigquery.py:80-84 | An empty tag list becomes "no policy tags" (None), not an empty PolicyTagList. A non-empty list is kept as given. |
| Schema.RebuildField | function/bq_taxonomy/bigquery.py:86-93 | A rebuilt column keeps its name, type, mode, description and nested fields, and every attribute the constructor call does not name (such as maximum length, precision, scale or default value expression) is back at its default. Its tags are the fold of the changes over its current tags, and it has no policy-tag attribute exactly when that fold is empty. |
| Schema.SyncSchema | function/bq_taxonomy/bigquery.py:37-96 | The new schema has the same length and column order. A column not named in the changes is copied unchanged. A named column keeps its name, type, mode, description and nested fields, loses every attribute the rebuild does not name, and gets the changes folded into its tags. |
| Schema.SyncIgnoresUnknownColumns | function/bq_taxonomy/bigquery.py:39-41 | Keys of the change map that name no column have no effect: the schema is the same with them dropped. |
| Schema.TableConfig | function/bq_taxonomy/bigquery.py:162-173 | The config has one key per column name and nothing else, so an empty schema gives `{}`. |
| Schema.TableConfigLastWins | function/bq_taxonomy/bigquery.py:167-173 | Each column's entry is its tag names, or the empty list when it has no policy tags. For a repeated name, the last column wins. |
| Warehouse.GetBigqueryTableConfig | function/bq_taxonomy/bigquery.py:146-181 | Succeeds iff the table exists, with one key per column. Otherwise it fails with the table-not-found error. |
| Warehouse.SyncBigqueryColumnPolicyTags | function/bq_taxonomy/bigquery.py:11-104 | Re-reads the table and submits one schema-only update of the synced schema. It completes iff the table exists and accepts writes. On failure the warehouse is unchanged. On success only that table's schema changes, to the synced schema. The trace is get_table then update_table, or get_table alone when the table is missing. |
| KeyQuote.WordLenIsMaximalRun | function/bq_taxonomy/dataform.py:58 | The length `\w+` takes is that of the longest run of word characters at the start. |
| KeyQuote.SpaceLenIsMaximalRun | function/bq_taxonomy/dataform.py:59 | The length `\s*` takes is that of the longest run of whitespace at the start. |
| KeyQuote.KeyAtIsTheMatch | function/bq_taxonomy/dataform.py:61 | The key found at a position is a match of `(\w+)\s*:` with the word as its group. When none is found, no match of the pattern starts there. When one is found, it is the only match starting there. |
| KeyQuote.BareKeyQuoted | function/bq_taxonomy/dataform.py:61-69 | A bare key, any whitespace and a colon become the quoted key and a colon, with the whitespace dropped. The rewrite then carries on right after the colon. |
| KeyQuote.RewriteEntersStrings | function/bq_taxonomy/dataform.py:61-69 | The rewrite does not know about string literals. The JSON string `"a:"` comes out as `""a":"`, so a declaration whose string value contains a word followed by a colon reaches json.loads altered. |
| KeyQuote.CleanMeansNoMatch | function/bq_taxonomy/dataform.py:61-69 | A text is clean iff no position in it starts a match of the pattern. |
| KeyQuote.QuotedKeyUntouched | function/bq_taxonomy/dataform.py:61-69 | A key already written as `"k":` is left as it is, because the closing quote separates the word from the colon. |
| KeyQuote.RewriteIsClean | function/bq_taxonomy/dataform.py:61-69 | The rewrite's output contains no match of the pattern anywhere. |
| KeyQuote.RewriteFixpointIff | function/bq_taxonomy/dataform.py:61-69 | A text is its own rewrite iff no match of the pattern occurs in it. |
| KeyQuote.RewriteIdempotent | function/bq_taxonomy/dataform.py:61-69 | Rewriting twice gives the same text as rewriting once. |
| KeyQuote.RewriteKeepsHead | function/bq_taxonomy/dataform.py:63-69 | A text starting with a non-word character, such as the `{` of the sliced suffix, keeps that first character. |
| Dataform.Find | function/bq_taxonomy/dataform.py:63 | `find` gives no index (Python's -1) iff the character is absent. Otherwise it gives the index of the first occurrence. |
| Dataform.ParseFile | function/bq_taxonomy/dataform.py:38-82 | Content without `{` gives the no-object error, and nothing else gives that error. Otherwise the result is the decode of the rewritten suffix that starts at the first `{`, and a decode failure gives the JSON decode error. |
| Dataform.ParseFileIgnoresPreamble | function/bq_taxonomy/dataform.py:63-69 | Prefixing brace-free text does not change the result: the preamble before the first `{` is discarded. |
| Dataform.DecoderInputStartsWithBrace | function/bq_taxonomy/dataform.py:63-71 | The text given to json.loads starts with `{` and is already in rewritten form. |
| Dataform.RequestDirectory | function/bq_taxonomy/dataform.py:14-36 | It returns the directory's pages when the listing succeeds. Otherwise it gives the listing error for that path. |
| Dataform.GetFiles | function/bq_taxonomy/dataform.py:84-107 | It succeeds iff no listing under the pages fails, and otherwise gives a listing error. On success the result is the old list followed by every file leaf, depth-first in page and entry order. Directories with a non-empty path are never collected themselves. |
| Dataform.GetFilesInPage | function/bq_taxonomy/dataform.py:99-107 | The same for the entries of one page: recurse into each directory entry, append each other entry's file path. |
| Dataform.GetFilesAddsOnePerFile | function/bq_taxonomy/dataform.py:84-107 | The walk only appends, and it adds exactly as many paths as there are file leaves in the tree. |
| Declarations.IsDeclaration | function/bq_taxonomy/process.py:44-50 | The filter holds iff `type:`, one whitespace character and `"declaration"` occur at some position of the content. |
| Declarations.Render | function/bq_taxonomy/process.py:56-60 | str.format renders a string value as itself. null, booleans and integers render as non-empty text without a dot. |
| Declarations.IdParts | function/bq_taxonomy/process.py:55-60 | The three parts are `database`, or the project id when that key is absent, then `schema` and `name`, each rendered. A present `database` wins even when it is null. |
| Declarations.TableId | function/bq_taxonomy/process.py:56-60 | The id is database (or the project id), schema and name joined by '.', for any parts, dotted ones included. When no part contains a dot, splitting the id on '.' gives back exactly the three parts. |
| Declarations.JoinSplitInverse | function/bq_taxonomy/process.py:56-60 | Splitting on '.' undoes joining with '.' when no part contains a dot. |
| Declarations.CollectDeclarations | function/bq_taxonomy/process.py:47-64 | The collection succeeds iff no collected file has a problem. A problem is a failed read, or a declaration file that fails to parse or lacks `schema` or `name`. On success, every declaration is built from a readable declaration file, with its parsed body and its table id. |
| Declarations.CollectKeepsDeclarationFiles | function/bq_taxonomy/process.py:47-64 | On success the declarations are exactly the declaration files, one each and in order. Every other file is skipped. |
| Declarations.CollectStopsAtFirstProblem | function/bq_taxonomy/process.py:47-53 | A failed collection reports the problem of the first file that has one, and every earlier file is fine. |
| Process.ChangeMap | function/bq_taxonomy/process.py:83-106 | It fails iff some column BigQuery has declares its tags in a way that raises, and then the error is the column-type error. |
| Process.ChangeMapEntries | function/bq_taxonomy/process.py:85-90 | A column is in the change map iff BigQuery has it, its definition declares `bigqueryPolicyTags`, and the declared set differs from the current one. Its entry is the comparison of the two and is never empty. |
| Process.ChangeMapIgnoresUnknownColumns | function/bq_taxonomy/process.py:100-106 | Declared columns BigQuery lacks have no effect on the change map, even when their definitions would raise. |
| Process.ChangeMapSettled | function/bq_taxonomy/process.py:89-90 | When every declared column already carries its declared set, the change map is empty. |
| Process.PlannedChanges | function/bq_taxonomy/process.py:77-82 | The table config is read first, so a missing table gives the table-not-found error. After that, a missing `columns` key or a non-mapping `columns` value each aborts with its own error. |
| Process.ReconcileTable | function/bq_taxonomy/process.py:71-118 | One table: it reads the table first. It writes this table, and only this table, iff the change map is non-empty. An empty map completes with the read alone. A planning error aborts with that error and leaves the warehouse unchanged. On completion the table holds the schema synced with the change map. |
| Process.ReconcileAll | function/bq_taxonomy/process.py:71-118 | When the first table fails, its failure is the run's result. Only declared tables are read or written. A completed loop has read every declared table. Every other table keeps its schema. |
| Process.ReconcileAllConcat | function/bq_taxonomy/process.py:71-118 | The loop over two lists of declarations in a row is the loop over the first list, then, only if that completed, the loop over the second from the warehouse the first left, with the calls in that order. An abort in the first list is the whole run's result. |
| Process.ReconcileAllStep | function/bq_taxonomy/process.py:71-118 | Once the declarations before `j` have completed, declaration `j`'s table is reconciled against the warehouse they left. If that fails (a rejected write, a column-type error, a missing table or `columns`), its failure is the whole run's result and nothing after it is read or written. If it completes, its update is applied and the loop goes on from there. |
| Process.ReconcileAllAbortsOnUnplannable | function/bq_taxonomy/process.py:71-82 | A declaration whose table is missing, or whose definition has no `columns` dictionary, aborts the whole run wherever it stands in the list. |
| Process.ReconcileAllAbortsAtPrefix | function/bq_taxonomy/process.py:71-118 | An aborted run has read exactly the tables of some non-empty prefix of the declarations, and none after it. |
| Process.ReconcileAllSettled | function/bq_taxonomy/process.py:108-118 | When no declaration plans a change, the run completes, writes nothing and leaves the warehouse as it was. |
| Process.SyncKeepsNames | function/bq_taxonomy/bigquery.py:86-96 | Syncing keeps every column name, so distinct names stay distinct. |
| Process.SyncSettlesColumn | function/bq_taxonomy/process.py:83-113 | After the sync, a column with declared tags carries exactly the declared set, when its current tags had no duplicate. A column without declared tags, or whose tags already match as a set, is unchanged. Every column keeps its name, type, mode, description and nested fields; a column whose tags change loses the attributes the rebuild does not name. |
| Process.SyncSettles | function/bq_taxonomy/process.py:83-113 | On a schema with distinct column names and duplicate-free tag lists, whose change map builds, after the sync every column BigQuery has carries the tag set declared for it. |
| Process.SyncSettlesTable | function/bq_taxonomy/process.py:83-113 | On a schema with distinct column names and duplicate-free tag lists, whose change map builds, building the change map again against the synced schema gives the empty map. |
| Process.ReconcileTableColumn | function/bq_taxonomy/process.py:71-113 | End to end for one column of a completed reconcile on a schema with distinct column names: declared tags are carried exactly when the column's tag list had no duplicates, and undeclared or already matching columns are unchanged. Every column keeps its name, type, mode, description and nested fields; a column whose tags change loses the attributes the rebuild does not name. |
| Process.ReconcileTableTwice | function/bq_taxonomy/process.py:108-118 | On a schema with distinct column names and duplicate-free tag lists, reconciling the same declaration again right after a completed reconcile plans no changes, reads the table once and writes nothing. |
| Process.Collected | function/bq_taxonomy/process.py:36-64 | A failed listing of the base folder gives a listing error for that folder, and a failed listing under it gives a listing error. Collection succeeds iff every listing succeeds and no path under the folder has a read, parse or missing-key problem. It then holds exactly one declaration per declaration file among the paths, in walk order, each built from its file. |
| Process.ValidateAndApplyIsTheLoop | function/bq_taxonomy/process.py:66-71 | With at least one declaration collected, the run is the per-table loop over the declarations in collection order. |
| Process.ValidateAndApplyAbortsAt | function/bq_taxonomy/bigquery.py:101-104 | Seen from the entry point: once the tables before declaration `j` have completed, a failure of declaration `j`'s table (the re-raised write rejection among them) ends the run with that failure, and nothing after it is read or written. |
| Process.ValidateAndApplyLastStep | function/bq_taxonomy/process.py:108-113 | Seen from the entry point: once every table before the last has completed and the last completes too, the run completes, with the calls of both and the warehouse that last update left. |
| Process.ValidateAndApply | function/bq_taxonomy/process.py:21-118 | A collection error aborts the run before any BigQuery call. No BigQuery call happens iff the collection fails or finds no declaration, and then the warehouse is unchanged. Otherwise only declared tables are written, a completed run has read every declared table, and every other table keeps its schema. A declaration whose table is missing or whose definition has no `columns` dictionary aborts the run; an aborted run has read only the tables of a prefix of the declarations; and when no declaration plans a change the run completes without a write. |

## Left out

- Logging is left out everywhere. So are the client singletons, the HTTP trigger, the
  Flask response and the logging setup. function/bq_taxonomy/main.py is not part of
  this model.
- The environment reads are parameters of `Declarations.Env`: the project id, the base
  folder, the JSON decoder and `repr`. The region, repository and workspace ids only
  name the workspace resource, so they are not modelled.
- `json.loads` is the parameter `decode`. The JSON grammar is not modelled, and JSON
  numbers are integers only: floats are left out.
- `read_file` is the map from path to content. A path missing from the map stands for
  any read failure, including a UTF-8 decode failure.
- `get_table` failures are modelled as the table being absent, and `update_table`
  failures as the table being in `rejectsWrites`. Changes made by anyone else between
  the two calls of a sync are not modelled.
- `\w` and `\s` in `(\w+)\s*:` and `type:\s"declaration"` are restricted to their ASCII
  members. Python also accepts Unicode letters, digits and spaces there.
- Dict iteration order of `columns` is not modelled: the definition is a map. Every
  column error carries only the table id, so the result does not depend on that order.
- Python's `assert` statements are modelled as always active. Running under `python -O`
  would remove the `schema`, `name` and `columns` checks.
- Declarations.Render: lists and dicts formatted into a table id go through the `repr`
  parameter. The model does not reproduce Python's repr of containers.
- Process.DesiredTags: a `bigqueryPolicyTags` value is accepted as a list of strings, or
  as a string (whose characters `set()` would see). Any other value is treated as a
  column-type error. That covers a dict, whose keys Python would compare, and a list of
  non-strings, which Python would sort when the types allow.
- TagDiff.DiffReconciles: proved for a current tag list without duplicates. With
  duplicates, "remove" drops only the first copy, which is what the source does too.
- Process.SyncSettlesColumn: stated for schemas with distinct column names and
  duplicate-free tag lists, for the same reason. The same hypotheses hold for
  TagDiff.ApplyChangesSettles, TagDiff.ApplyChangesIdempotent, TagDiff.DiffIdempotent,
  Process.SyncSettles, Process.SyncSettlesTable and Process.ReconcileTableColumn. With a
  repeated tag, current `["a","a","a"]` and desired `[]`, the diff is one "remove": the
  fold leaves `["a","a"]`, and folding it again leaves `["a"]`.
- Process.ReconcileTableTwice: assumes the table is not changed by anyone else between
  the two passes.
- Dataform.Listing: a directory listing succeeds or fails as a whole. In the source,
  `request_directory` fetches only the first page (dataform.py:31), and a later page can
  fail while `get_files` iterates (dataform.py:99), after the subdirectories of earlier
  pages have been walked. The run aborts either way, but the error reported can name a
  different path.

=== FILE: dataform.dfy ===
/** The Dataform side: parse_file (first-brace slicing, key quoting, JSON decoding) and
    the recursive get_files walk over a workspace directory tree.

    json.loads is a parameter `decode`: a partial function from text to a JSON object.
    The text it receives always starts with '{' (`DecoderInputStartsWithBrace`), so a
    successful decode is an object. A directory's listing is part of the tree value,
    which makes the walk's acyclicity assumption hold by construction. */
module Dataform {
  import opened Results
  import opened KeyQuote

  /** A JSON value as json.loads returns it; numbers are integers here. */
  datatype Json =
    | JNull
    | JBool(b: bool)
    | JNum(n: int)
    | JStr(s: string)
    | JArr(items: seq<Json>)
    | JObj(fields: map<string, Json>)

  /** `s.find(c)`: the index of the first occurrence of `c`, None for Python's -1. */
  function Find(s: string, c: char): (r: Option<nat>)
    ensures r.None? <==> c !in s
    ensures r.Some? ==> r.value < |s| && s[r.value] == c && c !in s[..r.value]
  {
    if |s| == 0 then None
    else if s[0] == c then Some(0)
    else
      match Find(s[1..], c)
      case None => None
      case Some(i) =>
        assert s[..i + 1] == [s[0]] + s[1..][..i];
        Some(i + 1)
  }

  /** There is only one first occurrence. */
  lemma FirstOccurrenceUnique(s: string, c: char, i: nat, j: nat)
    requires i < |s| && s[i] == c && c !in s[..i]
    requires j < |s| && s[j] == c && c !in s[..j]
    ensures i == j
  {
    assert forall k :: 0 <= k < i ==> s[..i][k] == s[k];
    assert forall k :: 0 <= k < j ==> s[..j][k] == s[k];
  }

  /** The text parse_file hands to json.loads: the rewrite of the suffix that starts at
      the first '{'; None when there is no '{'. */
  function DecoderInput(content: string): Option<string> {
    match Find(content, '{')
    case None => None
    case Some(i) => Some(Rewrite(content[i..]))
  }

  /** parse_file: the decoded object of the rewritten suffix starting at the first '{'.
      No '{' at all is an error, and so is a decode failure. */
  function ParseFile(content: string, decode: string -> Option<map<string, Json>>): (r: Result<map<string, Json>>)
    ensures r == Err(NoObjectFound) <==> '{' !in content
    ensures forall i :: 0 <= i < |content| && content[i] == '{' && '{' !in content[..i] ==>
      r == (match decode(Rewrite(content[i..])) case None => Err(JsonDecodeError) case Some(m) => Ok(m))
  {
    match DecoderInput(content)
    case None => Err(NoObjectFound)
    case Some(text) =>
      forall i | 0 <= i < |content| && content[i] == '{' && '{' !in content[..i]
        ensures i == Find(content, '{').value
      {
        FirstOccurrenceUnique(content, '{', i, Find(content, '{').value);
      }
      match decode(text)
      case None => Err(JsonDecodeError)
      case Some(m) => Ok(m)
  }

  /** The preamble before the first '{' is discarded: prefixing brace-free text changes nothing. */
  lemma ParseFileIgnoresPreamble(pre: string, content: string, decode: string -> Option<map<string, Json>>)
    requires '{' !in pre
    ensures ParseFile(pre + content, decode) == ParseFile(content, decode)
  {
    var s := pre + content;
    assert forall k :: 0 <= k < |content| ==> s[|pre| + k] == content[k];
    assert s[..|pre|] == pre;
    if '{' in content {
      var j := Find(content, '{').value;
      var i := |pre| + j;
      assert s[i..] == content[j..];
      assert s[..i] == pre + content[..j];
      assert '{' !in s[..i];
    } else {
      assert '{' !in s;
    }
  }

  /** The decoder always receives an object text: it starts with the brace, and it is
      already in rewritten form (rewriting it again would not change it). */
  lemma DecoderInputStartsWithBrace(content: string)
    requires DecoderInput(content).Some?
    ensures |DecoderInput(content).value| > 0 && DecoderInput(content).value[0] == '{'
    ensures Rewrite(DecoderInput(content).value) == DecoderInput(content).value
  {
    var i := Find(content, '{').value;
    RewriteKeepsHead(content[i..]);
    RewriteIdempotent(content[i..]);
  }

  /** A workspace directory entry: a file path, or a subdirectory path together with what
      listing it returns. */
  datatype Entry = FileEntry(file: string) | DirEntry(directory: string, listing: Listing)

  /** get_files recurses into an entry only when its directory path is non-empty (an
      empty path is falsy); every other entry is collected as a file. */
  predicate Descends(e: Entry) {
    e.DirEntry? && |e.directory| > 0
  }

  /** The path collected for an entry that is not descended into: a directory entry's
      unset `file` field reads as the empty path. */
  function FilePath(e: Entry): string {
    if e.FileEntry? then e.file else ""
  }

  /** One page of a directory listing response. */
  datatype Page = Page(entries: seq<Entry>)

  /** What query_directory_contents gives for a directory: its pages of entries, or a failure. */
  datatype Listing = Listed(pages: seq<Page>) | ListingFailed

  /** request_directory: the pages of a directory, or the listing error for its path. */
  function RequestDirectory(path: string, listing: Listing): (r: Result<seq<Page>>)
    ensures r.Ok? <==> listing.Listed?
    ensures r.Ok? ==> r.value == listing.pages
    ensures r.Err? ==> r.error == DirectoryListError(path)
  {
    match listing
    case ListingFailed => Err(DirectoryListError(path))
    case Listed(pages) => Ok(pages)
  }

  /** Reference description of the walk: every collected path under the pages,
      depth-first in page and entry order; a directory that is descended into contributes
      only what is under it, never its own path. */
  function PagesLeaves(pages: seq<Page>): seq<string>
    decreases pages
  {
    if |pages| == 0 then [] else EntriesLeaves(pages[0].entries) + PagesLeaves(pages[1..])
  }

  function EntriesLeaves(entries: seq<Entry>): seq<string>
    decreases entries
  {
    if |entries| == 0 then []
    else
      var e := entries[0];
      if Descends(e) then
        (match e.listing
         case ListingFailed => []
         case Listed(ps) => PagesLeaves(ps)) + EntriesLeaves(entries[1..])
      else [FilePath(e)] + EntriesLeaves(entries[1..])
  }

  /** No directory listing under the pages fails. */
  predicate PagesHealthy(pages: seq<Page>)
    decreases pages
  {
    |pages| == 0 || (EntriesHealthy(pages[0].entries) && PagesHealthy(pages[1..]))
  }

  predicate EntriesHealthy(entries: seq<Entry>)
    decreases entries
  {
    |entries| == 0 ||
    ((Descends(entries[0]) ==> entries[0].listing.Listed? && PagesHealthy(entries[0].listing.pages))
     && EntriesHealthy(entries[1..]))
  }

  /** get_files: appends to `listFile` every file leaf under the pages, recursing into
      each directory with a fresh listing. The prior contents stay as a prefix; the walk
      fails, with a listing error, exactly when some listing under the pages fails. */
  function GetFiles(listFile: seq<string>, pages: seq<Page>): (r: Result<seq<string>>)
    ensures r.Ok? <==> PagesHealthy(pages)
    ensures r.Ok? ==> r.value == listFile + PagesLeaves(pages)
    ensures r.Err? ==> r.error.DirectoryListError?
    decreases pages
  {
    if |pages| == 0 then Ok(listFile)
    else
      match GetFilesInPage(listFile, pages[0].entries)
      case Err(e) => Err(e)
      case Ok(afterPage) =>
        var r := GetFiles(afterPage, pages[1..]);
        assert r.Ok? ==> r.value == listFile + PagesLeaves(pages) by {
          if r.Ok? {
            assert r.value == (listFile + EntriesLeaves(pages[0].entries)) + PagesLeaves(pages[1..]);
          }
        }
        r
  }

  /** The inner loop of get_files over one page's entries. */
  function GetFilesInPage(listFile: seq<string>, entries: seq<Entry>): (r: Result<seq<string>>)
    ensures r.Ok? <==> EntriesHealthy(entries)
    ensures r.Ok? ==> r.value == listFile + EntriesLeaves(entries)
    ensures r.Err? ==> r.error.DirectoryListError?
    decreases entries
  {
    if |entries| == 0 then Ok(listFile)
    else
      var e := entries[0];
      if !Descends(e) then
        var r := GetFilesInPage(listFile + [FilePath(e)], entries[1..]);
        assert r.Ok? ==> r.value == listFile + EntriesLeaves(entries) by {
          if r.Ok? {
            assert r.value == (listFile + [FilePath(e)]) + EntriesLeaves(entries[1..]);
          }
        }
        r
      else
        match RequestDirectory(e.directory, e.listing)
        case Err(err) => Err(err)
        case Ok(sub) =>
          match GetFiles(listFile, sub)
          case Err(err) => Err(err)
          case Ok(afterDir) =>
            var r := GetFilesInPage(afterDir, entries[1..]);
            assert r.Ok? ==> r.value == listFile + EntriesLeaves(entries) by {
              if r.Ok? {
                assert r.value == (listFile + PagesLeaves(sub)) + EntriesLeaves(entries[1..]);
              }
            }
            r
  }

  /** The number of file leaves under the pages. */
  function PagesFileCount(pages: seq<Page>): nat
    decreases pages
  {
    if |pages| == 0 then 0 else EntriesFileCount(pages[0].entries) + PagesFileCount(pages[1..])
  }

  function EntriesFileCount(entries: seq<Entry>): nat
    decreases entries
  {
    if |entries| == 0 then 0
    else
      var e := entries[0];
      if Descends(e) then
        (match e.listing
         case ListingFailed => 0
         case Listed(ps) => PagesFileCount(ps)) + EntriesFileCount(entries[1..])
      else 1 + EntriesFileCount(entries[1..])
  }

  /** The walk adds exactly as many paths as there are file leaves under the pages. */
  lemma {:induction false} GetFilesAddsOnePerFile(listFile: seq<string>, pages: seq<Page>)
    requires PagesHealthy(pages)
    ensures |GetFiles(listFile, pages).value| == |listFile| + PagesFileCount(pages)
  {
    PagesLeavesCount(pages);
  }

  lemma {:induction false} PagesLeavesCount(pages: seq<Page>)
    ensures |PagesLeaves(pages)| == PagesFileCount(pages)
    decreases pages
  {
    if |pages| > 0 {
      EntriesLeavesCount(pages[0].entries);
      PagesLeavesCount(pages[1..]);
    }
  }

  lemma {:induction false} EntriesLeavesCount(entries: seq<Entry>)
    ensures |EntriesLeaves(entries)| == EntriesFileCount(entries)
    decreases entries
  {
    if |entries| > 0 {
      EntriesLeavesCount(entries[1..]);
      if Descends(entries[0]) && entries[0].listing.Listed? {
        PagesLeavesCount(entries[0].listing.pages);
      }
    }
  }
}

=== FILE: declarations.dfy ===
/** The first half of validate_and_apply: keep the files that are declarations, parse
    them, check the keys the run insists on, and build each declaration's table id. */
module Declarations {
  import opened Results
  import opened KeyQuote
  import opened Dataform

  /** What the run reads from its environment and the library calls it cannot see:
      PROJECT_ID, BASE_FOLDER, json.loads (`decode`) and Python's repr of a list or
      dict (`repr`, used only when such a value is formatted into a table id). */
  datatype Env = Env(
    projectId: string,
    baseFolder: string,
    decode: string -> Option<map<string, Json>>,
    repr: Json -> string)

  /** A usable declaration file: its path, the table it targets and its parsed body. */
  datatype Declaration = Declaration(file: string, tableId: string, definition: map<string, Json>)

  /** The text `type:`, one whitespace character, then `"declaration"` starts at `i`:
      a match of the search pattern `type:\s\"declaration\"`. */
  predicate DeclarationAt(content: string, i: int) {
    && 0 <= i && i + 19 <= |content|
    && content[i..i + 5] == "type:"
    && IsSpace(content[i + 5])
    && content[i + 6..i + 19] == "\"declaration\""
  }

  lemma DeclarationAtShift(content: string)
    requires |content| > 0
    ensures forall i :: 0 <= i ==> (DeclarationAt(content[1..], i) <==> DeclarationAt(content, i + 1))
  {
    forall i | 0 <= i
      ensures DeclarationAt(content[1..], i) <==> DeclarationAt(content, i + 1)
    {
      if i + 19 <= |content| - 1 {
        assert content[1..][i..i + 5] == content[i + 1..i + 6];
        assert content[1..][i + 6..i + 19] == content[i + 7..i + 20];
      }
    }
  }

  /** The declaration filter: the pattern occurs somewhere in the content. */
  function IsDeclaration(content: string): (b: bool)
    ensures b <==> exists i :: DeclarationAt(content, i)
    decreases |content|
  {
    if |content| < 19 then false
    else
      DeclarationAtShift(content);
      assert forall i :: DeclarationAt(content, i) && i > 0 ==> DeclarationAt(content[1..], i - 1);
      DeclarationAt(content, 0) || IsDeclaration(content[1..])
  }

  function DigitChar(d: nat): char
    requires d < 10
  {
    "0123456789"[d]
  }

  /** Decimal digits of a natural number, most significant first. */
  function NatToString(n: nat): (r: string)
    ensures |r| > 0
    ensures forall k :: 0 <= k < |r| ==> '0' <= r[k] <= '9'
    decreases n
  {
    if n < 10 then [DigitChar(n)] else NatToString(n / 10) + [DigitChar(n % 10)]
  }

  /** How str.format renders a JSON value: strings as they are, None/True/False and
      integers as Python prints them, lists and dicts through `repr`. */
  function Render(j: Json, repr: Json -> string): (r: string)
    ensures j.JStr? ==> r == j.s
    ensures j.JNull? || j.JBool? || j.JNum? ==> |r| > 0 && '.' !in r
  {
    match j
    case JStr(s) => s
    case JNull => "None"
    case JBool(b) => if b then "True" else "False"
    case JNum(n) => if n < 0 then "-" + NatToString(-n) else NatToString(n)
    case _ => repr(j)
  }

  /** The three parts of the table id: `database` (PROJECT_ID when the key is absent),
      `schema` and `name`, each rendered. A present `database` wins even when it is null. */
  function IdParts(definition: map<string, Json>, env: Env): (parts: seq<string>)
    requires "schema" in definition && "name" in definition
    ensures |parts| == 3
    ensures "database" !in definition ==> parts[0] == env.projectId
    ensures "database" in definition ==> parts[0] == Render(definition["database"], env.repr)
    ensures parts[1] == Render(definition["schema"], env.repr) && parts[2] == Render(definition["name"], env.repr)
  {
    var database := if "database" in definition then Render(definition["database"], env.repr) else env.projectId;
    [database, Render(definition["schema"], env.repr), Render(definition["name"], env.repr)]
  }

  /** `'{project}.{schema}.{name}'.format(...)`. */
  function TableId(definition: map<string, Json>, env: Env): (id: string)
    requires "schema" in definition && "name" in definition
    ensures var parts := IdParts(definition, env); id == parts[0] + "." + parts[1] + "." + parts[2]
    ensures (forall k :: 0 <= k < 3 ==> '.' !in IdParts(definition, env)[k]) ==>
      SplitDots(id) == IdParts(definition, env)
  {
    var parts := IdParts(definition, env);
    JoinSplitInverse(parts);
    assert parts[1..][1..] == [parts[2]];
    assert JoinDots(parts[1..]) == parts[1] + "." + parts[2];
    JoinDots(parts)
  }

  /** Parts joined with '.' between them. */
  function JoinDots(parts: seq<string>): string
    requires |parts| > 0
  {
    if |parts| == 1 then parts[0] else parts[0] + "." + JoinDots(parts[1..])
  }

  /** `s.split('.')`: the maximal dot-free pieces, empty ones included. */
  function SplitDots(s: string): (r: seq<string>)
    ensures |r| > 0
  {
    if |s| == 0 then [""]
    else
      var rest := SplitDots(s[1..]);
      if s[0] == '.' then [""] + rest else [[s[0]] + rest[0]] + rest[1..]
  }

  lemma {:induction false} SplitDotFree(a: string, rest: string)
    requires '.' !in a
    ensures SplitDots(a + rest) == [a + SplitDots(rest)[0]] + SplitDots(rest)[1..]
    decreases |a|
  {
    if |a| > 0 {
      assert (a + rest)[1..] == a[1..] + rest;
      assert (a + rest)[0] == a[0];
      assert '.' !in a[1..] by { assert forall k :: 0 <= k < |a[1..]| ==> a[1..][k] == a[k + 1]; }
      SplitDotFree(a[1..], rest);
      assert [a[0]] + (a[1..] + SplitDots(rest)[0]) == a + SplitDots(rest)[0];
    } else {
      var r := SplitDots(rest);
      assert a + rest == rest;
      assert a + r[0] == r[0];
      assert [r[0]] + r[1..] == r;
    }
  }

  /** Splitting undoes joining when no part contains a dot. */
  lemma {:induction false} JoinSplitInverse(parts: seq<string>)
    requires |parts| > 0
    ensures (forall k :: 0 <= k < |parts| ==> '.' !in parts[k]) ==> SplitDots(JoinDots(parts)) == parts
    decreases |parts|
  {
    if forall k :: 0 <= k < |parts| ==> '.' !in parts[k] {
      if |parts| == 1 {
        SplitDotFree(parts[0], "");
        assert parts[0] + "" == parts[0];
      } else {
        var tail := JoinDots(parts[1..]);
        JoinSplitInverse(parts[1..]);
        assert forall k :: 0 <= k < |parts[1..]| ==> parts[1..][k] == parts[k + 1];
        assert parts[0] + "." + tail == parts[0] + ("." + tail);
        SplitDotFree(parts[0], "." + tail);
        assert ("." + tail)[1..] == tail;
        assert SplitDots("." + tail) == [""] + parts[1..];
        assert parts[0] + "" == parts[0];
        assert [parts[0]] + parts[1..] == parts;
      }
    }
  }

  /** Why a collected file stops the run, if it does: it cannot be read, or it is a
      declaration that does not parse or lacks the `schema` or `name` key. A readable
      file that is not a declaration is skipped without being parsed. */
  function FileProblem(f: string, contents: map<string, string>, env: Env): Option<Error> {
    if f !in contents then Some(ReadFileError(f))
    else if !IsDeclaration(contents[f]) then None
    else
      match ParseFile(contents[f], env.decode)
      case Err(e) => Some(e)
      case Ok(parsed) =>
        if "schema" !in parsed then Some(MissingSchema(f))
        else if "name" !in parsed then Some(MissingName(f))
        else None
  }

  /** `d` is what the run builds for the declaration file `d.file`. */
  predicate BuiltFrom(d: Declaration, contents: map<string, string>, env: Env) {
    && d.file in contents
    && IsDeclaration(contents[d.file])
    && ParseFile(contents[d.file], env.decode) == Ok(d.definition)
    && "schema" in d.definition && "name" in d.definition
    && d.tableId == TableId(d.definition, env)
  }

  /** The readable files whose content passes the declaration filter, in order. */
  function DeclarationFiles(files: seq<string>, contents: map<string, string>): seq<string> {
    if |files| == 0 then []
    else if files[0] in contents && IsDeclaration(contents[files[0]]) then [files[0]] + DeclarationFiles(files[1..], contents)
    else DeclarationFiles(files[1..], contents)
  }

  function FilesOf(ds: seq<Declaration>): (r: seq<string>)
    ensures |r| == |ds| && forall k :: 0 <= k < |ds| ==> r[k] == ds[k].file
  {
    seq(|ds|, k requires 0 <= k < |ds| => ds[k].file)
  }

  lemma FilesOfCons(d: Declaration, ds: seq<Declaration>)
    ensures FilesOf([d] + ds) == [d.file] + FilesOf(ds)
  {
    var l := FilesOf([d] + ds);
    var r := [d.file] + FilesOf(ds);
    assert |l| == |r|;
    forall k | 0 <= k < |l| ensures l[k] == r[k] {
      if k > 0 { assert ([d] + ds)[k] == ds[k - 1]; }
    }
  }

  /** The filter loop of validate_and_apply: every file is read in order, and the first
      problem stops the run with that file's error. Otherwise the result holds one
      declaration per declaration file, in order, each built from that file. */
  function CollectDeclarations(files: seq<string>, contents: map<string, string>, env: Env): (r: Result<seq<Declaration>>)
    ensures r.Ok? <==> forall k :: 0 <= k < |files| ==> FileProblem(files[k], contents, env).None?
    ensures r.Ok? ==> forall k :: 0 <= k < |r.value| ==> BuiltFrom(r.value[k], contents, env)
  {
    if |files| == 0 then Ok([])
    else
      var f := files[0];
      match FileProblem(f, contents, env)
      case Some(e) => Err(e)
      case None =>
        var rest := CollectDeclarations(files[1..], contents, env);
        assert forall k :: 1 <= k < |files| ==> files[1..][k - 1] == files[k];
        match rest
        case Err(e) => Err(e)
        case Ok(ds) =>
          if IsDeclaration(contents[f]) then
            var parsed := ParseFile(contents[f], env.decode).value;
            var d := Declaration(f, TableId(parsed, env), parsed);
            Ok([d] + ds)
          else
            Ok(ds)
  }

  /** A successful collection keeps exactly the declaration files, in order. */
  lemma {:induction false} CollectKeepsDeclarationFiles(files: seq<string>, contents: map<string, string>, env: Env)
    requires CollectDeclarations(files, contents, env).Ok?
    ensures FilesOf(CollectDeclarations(files, contents, env).value) == DeclarationFiles(files, contents)
  {
    if |files| > 0 {
      CollectKeepsDeclarationFiles(files[1..], contents, env);
      var ds := CollectDeclarations(files[1..], contents, env).value;
      if IsDeclaration(contents[files[0]]) {
        FilesOfCons(CollectDeclarations(files, contents, env).value[0], ds);
      }
    }
  }

  /** The run stops with the error of the first file that has a problem. */
  lemma {:induction false} CollectStopsAtFirstProblem(files: seq<string>, contents: map<string, string>, env: Env)
    ensures var r := CollectDeclarations(files, contents, env);
      r.Err? ==> exists k :: 0 <= k < |files| && FileProblem(files[k], contents, env) == Some(r.error)
                             && forall j :: 0 <= j < k ==> FileProblem(files[j], contents, env).None?
  {
    var r := CollectDeclarations(files, contents, env);
    if r.Err? && FileProblem(files[0], contents, env).None? {
      CollectStopsAtFirstProblem(files[1..], contents, env);
      var k :| 0 <= k < |files[1..]| && FileProblem(files[1..][k], contents, env) == Some(r.error)
               && forall j :: 0 <= j < k ==> FileProblem(files[1..][j], contents, env).None?;
      assert forall j :: 1 <= j < k + 1 ==> files[j] == files[1..][j - 1];
    }
  }
}

=== FILE: key_quote.dfy ===
/** The pre-JSON rewrite of parse_file: `re.sub(r'(\w+)\s*:', r'"\1":', text)`.

    Python's `re.sub` scans left to right: where the pattern matches, the match is
    replaced and the scan resumes after it; elsewhere one character is copied. At a
    given position the pattern can match in one way only: `\w+` must take the whole
    run of word characters (the next character is a space or the colon) and `\s*` the
    whole run of spaces after it. `\w` and `\s` are restricted to their ASCII members. */
module KeyQuote {
  import opened Results

  /** `\w` on ASCII: letters, digits and the underscore. */
  predicate IsWordChar(c: char) {
    ('a' <= c <= 'z') || ('A' <= c <= 'Z') || ('0' <= c <= '9') || c == '_'
  }

  /** `\s` on ASCII: the characters Python's str.isspace accepts below 0x80. */
  predicate IsSpace(c: char) {
    c == ' ' || ('\U{0009}' <= c <= '\U{000D}') || ('\U{001C}' <= c <= '\U{001F}')
  }

  /** Length of the run of word characters that starts the text. */
  function WordLen(s: string): (n: nat)
    ensures n <= |s|
  {
    if |s| > 0 && IsWordChar(s[0]) then 1 + WordLen(s[1..]) else 0
  }

  /** WordLen is the length of the longest prefix made of word characters. */
  lemma {:induction false} WordLenIsMaximalRun(s: string, n: nat)
    requires n <= |s|
    ensures WordLen(s) == n <==> (forall i :: 0 <= i < n ==> IsWordChar(s[i])) && (n < |s| ==> !IsWordChar(s[n]))
    decreases n
  {
    if n > 0 && |s| > 0 && IsWordChar(s[0]) {
      WordLenIsMaximalRun(s[1..], n - 1);
      assert forall i :: 1 <= i < n ==> s[i] == s[1..][i - 1];
    }
  }

  /** Length of the run of spaces that starts the text. */
  function SpaceLen(s: string): (n: nat)
    ensures n <= |s|
  {
    if |s| > 0 && IsSpace(s[0]) then 1 + SpaceLen(s[1..]) else 0
  }

  /** SpaceLen is the length of the longest prefix made of spaces. */
  lemma {:induction false} SpaceLenIsMaximalRun(s: string, n: nat)
    requires n <= |s|
    ensures SpaceLen(s) == n <==> (forall i :: 0 <= i < n ==> IsSpace(s[i])) && (n < |s| ==> !IsSpace(s[n]))
    decreases n
  {
    if n > 0 && |s| > 0 && IsSpace(s[0]) {
      SpaceLenIsMaximalRun(s[1..], n - 1);
      assert forall i :: 1 <= i < n ==> s[i] == s[1..][i - 1];
    }
  }

  /** The pattern `(\w+)\s*:` matches `s[..m]` with its group being `s[..n]`. */
  predicate MatchesKey(s: string, n: nat, m: nat) {
    && 0 < n < m <= |s|
    && (forall i :: 0 <= i < n ==> IsWordChar(s[i]))
    && (forall i :: n <= i < m - 1 ==> IsSpace(s[i]))
    && s[m - 1] == ':'
  }

  /** A match at the start of the text: the key word and how many characters it spans. */
  datatype Key = Key(word: string, consumed: nat)

  /** The match of `(\w+)\s*:` at the start of `s`, if there is one; `KeyAtIsTheMatch`
      relates it to the pattern. */
  function KeyAt(s: string): (k: Option<Key>)
    ensures k.Some? ==> 0 < |k.value.word| < k.value.consumed <= |s|
  {
    var q := WordLen(s);
    if q == 0 then None
    else
      var w := q + SpaceLen(s[q..]);
      if w < |s| && s[w] == ':' then Some(Key(s[..q], w + 1)) else None
  }

  /** KeyAt finds the pattern's match at the start of the text exactly when there is
      one, and the match it reports is the only one there. */
  lemma KeyAtIsTheMatch(s: string)
    ensures KeyAt(s).Some? ==> MatchesKey(s, |KeyAt(s).value.word|, KeyAt(s).value.consumed)
                               && KeyAt(s).value.word == s[..|KeyAt(s).value.word|]
    ensures KeyAt(s).None? ==> forall n: nat, m: nat :: !MatchesKey(s, n, m)
    ensures KeyAt(s).Some? ==> forall n: nat, m: nat :: MatchesKey(s, n, m) ==>
      n == |KeyAt(s).value.word| && m == KeyAt(s).value.consumed
  {
    var q := WordLen(s);
    WordLenIsMaximalRun(s, q);
    var w := q + SpaceLen(s[q..]);
    SpaceLenIsMaximalRun(s[q..], w - q);
    assert forall i :: q <= i < w ==> s[i] == s[q..][i - q];
    forall n: nat, m: nat | MatchesKey(s, n, m)
      ensures n == q && m == w + 1
    {
      WordLenIsMaximalRun(s, n);
      SpaceLenIsMaximalRun(s[q..], m - 1 - q);
      assert forall i :: q <= i < m - 1 ==> s[q..][i - q] == s[i];
    }
  }

  /** The replacement `"\1":` for a key word. */
  function Quoted(word: string): string {
    "\"" + word + "\":"
  }

  /** `re.sub(r'(\w+)\s*:', r'"\1":', s)`: every non-overlapping match, taken left to
      right, becomes the quoted word and a colon (the spaces before the colon are
      dropped); every other character is copied. */
  function Rewrite(s: string): string
    decreases |s|
  {
    if |s| == 0 then ""
    else
      match KeyAt(s)
      case Some(k) => Quoted(k.word) + Rewrite(s[k.consumed..])
      case None => [s[0]] + Rewrite(s[1..])
  }

  /** No position of the text starts a match of the pattern. */
  predicate Clean(t: string)
    decreases |t|
  {
    KeyAt(t).None? && (|t| == 0 || Clean(t[1..]))
  }

  lemma {:induction false} CleanMeansNoMatch(t: string)
    ensures Clean(t) <==> forall i :: 0 <= i <= |t| ==> KeyAt(t[i..]).None?
    decreases |t|
  {
    assert t[0..] == t;
    if |t| > 0 {
      CleanMeansNoMatch(t[1..]);
      assert forall i :: 1 <= i <= |t| ==> t[i..] == t[1..][i - 1..];
    }
  }

  /** The first non-space character, after the leading spaces, is a colon. */
  predicate ColonAfterSpaces(t: string) {
    SpaceLen(t) < |t| && t[SpaceLen(t)] == ':'
  }

  /** A text that starts with neither a space nor a colon. */
  predicate Opaque(t: string) {
    |t| > 0 && !IsSpace(t[0]) && t[0] != ':'
  }

  lemma Assoc(a: string, b: string, c: string)
    ensures a + (b + c) == (a + b) + c
  {
  }

  lemma NonWordHead(c: char, x: string)
    requires !IsWordChar(c)
    ensures KeyAt([c] + x).None?
    ensures Rewrite([c] + x) == [c] + Rewrite(x)
    ensures Clean([c] + x) <==> Clean(x)
  {
    assert ([c] + x)[1..] == x;
  }

  /** Whether a word character starts a match depends on what follows it. */
  lemma KeyAtWordCons(c: char, x: string)
    requires IsWordChar(c)
    ensures |x| > 0 && IsWordChar(x[0]) ==> (KeyAt([c] + x).Some? <==> KeyAt(x).Some?)
    ensures (|x| == 0 || !IsWordChar(x[0])) ==> (KeyAt([c] + x).Some? <==> ColonAfterSpaces(x))
  {
    var s := [c] + x;
    assert s[1..] == x;
    assert WordLen(s) == 1 + WordLen(x);
    var q := WordLen(s);
    var q' := WordLen(x);
    assert s[q..] == x[q'..];
    assert forall i :: q <= i < |s| ==> s[i] == x[i - 1];
  }

  lemma CleanCons(c: char, x: string)
    requires Clean(x)
    requires IsWordChar(c) ==> !ColonAfterSpaces(x)
    ensures Clean([c] + x)
  {
    assert ([c] + x)[1..] == x;
    if IsWordChar(c) {
      KeyAtWordCons(c, x);
    } else {
      NonWordHead(c, x);
    }
  }

  /** Leading spaces are copied and do not affect the rest of the rewrite. */
  lemma {:induction false} RewriteSpaces(sp: string, u: string)
    requires forall i :: 0 <= i < |sp| ==> IsSpace(sp[i])
    ensures Rewrite(sp + u) == sp + Rewrite(u)
    decreases |sp|
  {
    if |sp| == 0 {
      assert sp + u == u;
    } else {
      var rest := sp[1..] + u;
      assert sp + u == [sp[0]] + rest;
      NonWordHead(sp[0], rest);
      RewriteSpaces(sp[1..], u);
      Assoc([sp[0]], sp[1..], Rewrite(u));
      assert sp == [sp[0]] + sp[1..];
    }
  }

  lemma {:induction false} SpaceLenSpaces(sp: string, r: string)
    requires forall i :: 0 <= i < |sp| ==> IsSpace(sp[i])
    ensures SpaceLen(sp + r) == |sp| + SpaceLen(r)
    decreases |sp|
  {
    if |sp| == 0 {
      assert sp + r == r;
    } else {
      assert (sp + r)[1..] == sp[1..] + r;
      SpaceLenSpaces(sp[1..], r);
    }
  }

  /** The rewrite of a text that starts with a non-space, non-colon character starts
      with a non-space, non-colon character too: the same one, or an opening quote. */
  lemma RewriteOpaque(u: string)
    requires Opaque(u)
    ensures Opaque(Rewrite(u))
  {
  }

  lemma {:induction false} WordLenWords(w: string, r: string)
    requires forall i :: 0 <= i < |w| ==> IsWordChar(w[i])
    ensures WordLen(w + r) == |w| + WordLen(r)
    decreases |w|
  {
    if |w| == 0 {
      assert w + r == r;
    } else {
      assert (w + r)[1..] == w[1..] + r;
      WordLenWords(w[1..], r);
    }
  }

  /** A run of word characters followed by an opaque text: no match starts inside the
      run, so it is copied and stays clean. */
  lemma {:induction false} WordsBeforeOpaque(w: string, x: string)
    requires forall i :: 0 <= i < |w| ==> IsWordChar(w[i])
    requires Opaque(x) && !IsWordChar(x[0])
    ensures Rewrite(w + x) == w + Rewrite(x)
    ensures Clean(x) ==> Clean(w + x)
    decreases |w|
  {
    if |w| == 0 {
      assert w + x == x;
    } else {
      var rest := w[1..] + x;
      assert w + x == [w[0]] + rest;
      assert ([w[0]] + rest)[1..] == rest;
      KeyAtWordCons(w[0], rest);
      if |w[1..]| == 0 {
        assert rest == x;
      } else {
        assert rest[0] == w[1];
        WordLenWords(w[1..], x);
        assert rest[WordLen(rest)..] == x;
      }
      WordsBeforeOpaque(w[1..], x);
      Assoc([w[0]], w[1..], Rewrite(x));
      Assoc([w[0]], w[1..], x);
      assert w == [w[0]] + w[1..];
    }
  }

  /** A key already in the form `"k":` is left as it is (the closing quote separates
      word and colon), and it does not create a match in what follows. */
  lemma QuotedKeyUntouched(w: string, x: string)
    requires forall i :: 0 <= i < |w| ==> IsWordChar(w[i])
    ensures Rewrite(Quoted(w) + x) == Quoted(w) + Rewrite(x)
    ensures Clean(x) ==> Clean(Quoted(w) + x)
  {
    var x1 := [':'] + x;
    var x2 := ['"'] + x1;
    var x3 := w + x2;
    NonWordHead(':', x);
    NonWordHead('"', x1);
    WordsBeforeOpaque(w, x2);
    NonWordHead('"', x3);
    QuotedSplit(w, x);
    QuotedSplit(w, Rewrite(x));
  }

  lemma QuotedSplit(w: string, x: string)
    ensures Quoted(w) + x == ['"'] + (w + (['"'] + ([':'] + x)))
  {
    assert Quoted(w) == ['"'] + w + ['"', ':'];
    Assoc(['"'], [':'], x);
    Assoc(w, ['"', ':'], x);
    Assoc(['"'], w, ['"', ':'] + x);
    Assoc(['"'] + w, ['"', ':'], x);
  }

  /** The rewrite leaves no match of the pattern anywhere in its output. */
  lemma {:induction false} RewriteIsClean(s: string)
    ensures Clean(Rewrite(s))
    decreases |s|
  {
    if |s| == 0 {
      assert Rewrite(s) == "";
    } else {
      match KeyAt(s)
      case Some(k) =>
        RewriteIsClean(s[k.consumed..]);
        KeyAtIsTheMatch(s);
        QuotedKeyUntouched(k.word, Rewrite(s[k.consumed..]));
      case None =>
        RewriteIsClean(s[1..]);
        RewriteTailAfterWordChar(s);
        CleanCons(s[0], Rewrite(s[1..]));
    }
  }

  /** When no match starts at a word character, what the rest rewrites to does not
      open with spaces and a colon, so prefixing the character creates no match. */
  lemma RewriteTailAfterWordChar(s: string)
    requires |s| > 0 && KeyAt(s).None?
    ensures IsWordChar(s[0]) ==> !ColonAfterSpaces(Rewrite(s[1..]))
  {
    if IsWordChar(s[0]) {
      var tail := s[1..];
      assert s == [s[0]] + tail;
      KeyAtWordCons(s[0], tail);
      var n := SpaceLen(tail);
      SpaceLenIsMaximalRun(tail, n);
      var sp := tail[..n];
      var u := tail[n..];
      assert tail == sp + u;
      assert forall i :: 0 <= i < |sp| ==> IsSpace(sp[i]);
      RewriteSpaces(sp, u);
      if |u| > 0 {
        assert u[0] == tail[n];
        assert !IsSpace(u[0]);
        assert u[0] != ':' by {
          if |tail| > 0 && IsWordChar(tail[0]) {
            assert n == 0;
          }
        }
        RewriteOpaque(u);
      }
      NoColonAfterSpaces(sp, Rewrite(u));
    }
  }

  /** Spaces followed by nothing, or by a text that opens with neither a space nor a
      colon, hold no colon after the spaces. */
  lemma NoColonAfterSpaces(sp: string, v: string)
    requires forall i :: 0 <= i < |sp| ==> IsSpace(sp[i])
    requires |v| == 0 || Opaque(v)
    ensures !ColonAfterSpaces(sp + v)
  {
    SpaceLenSpaces(sp, v);
    if |v| > 0 {
      assert (sp + v)[|sp|] == v[0];
    } else {
      assert sp + v == sp;
    }
  }

  /** A clean text is its own rewrite. */
  lemma {:induction false} CleanIsFixpoint(t: string)
    requires Clean(t)
    ensures Rewrite(t) == t
    decreases |t|
  {
    if |t| > 0 {
      CleanIsFixpoint(t[1..]);
      assert t == [t[0]] + t[1..];
    }
  }

  /** A text is left unchanged by the rewrite exactly when no match of the pattern
      starts anywhere in it. */
  lemma RewriteFixpointIff(t: string)
    ensures Rewrite(t) == t <==> Clean(t)
  {
    RewriteIsClean(t);
    if Clean(t) {
      CleanIsFixpoint(t);
    }
  }

  /** Rewriting twice gives what rewriting once gives. */
  lemma RewriteIdempotent(s: string)
    ensures Rewrite(Rewrite(s)) == Rewrite(s)
  {
    RewriteIsClean(s);
    CleanIsFixpoint(Rewrite(s));
  }

  /** A text that starts with a non-word character keeps it as its first character;
      so the rewritten `{...}` suffix still starts with the brace. */
  lemma RewriteKeepsHead(s: string)
    requires |s| > 0 && !IsWordChar(s[0])
    ensures |Rewrite(s)| > 0 && Rewrite(s)[0] == s[0]
  {
    NonWordHead(s[0], s[1..]);
    assert s == [s[0]] + s[1..];
  }

  /** A bare key, any spaces and a colon become the quoted key and a colon (the spaces
      are dropped); the rewrite then carries on after the colon. */
  lemma BareKeyQuoted(w: string, sp: string, x: string)
    requires |w| > 0 && forall i :: 0 <= i < |w| ==> IsWordChar(w[i])
    requires forall i :: 0 <= i < |sp| ==> IsSpace(sp[i])
    ensures Rewrite(w + sp + ":" + x) == Quoted(w) + Rewrite(x)
  {
    var t := w + sp + ":" + x;
    var r := sp + (":" + x);
    assert t == w + r;
    WordLenWords(w, r);
    assert WordLen(r) == 0 by {
      if |sp| > 0 { assert r[0] == sp[0]; } else { assert r[0] == ':'; }
    }
    SpaceLenSpaces(sp, ":" + x);
    assert SpaceLen(":" + x) == 0;
    assert t[|w|..] == r;
    assert t[|w| + |sp|] == ':';
    assert t[..|w|] == w;
    assert KeyAt(t) == Some(Key(w, |w| + |sp| + 1));
    assert t[|w| + |sp| + 1..] == x;
  }

  /** The rewrite does not know about string literals: a value such as `"a:"` is
      rewritten too, into the text `""a":"`. */
  lemma RewriteEntersStrings()
    ensures Rewrite("\"a:\"") == "\"\"a\":\""
  {
    var t := "a:\"";
    assert t[1..] == ":\"" && WordLen(t[1..]) == 0;
    assert WordLen(t) == 1;
    assert SpaceLen(t[1..]) == 0;
    assert t[..1] == "a";
    assert KeyAt(t) == Some(Key("a", 2));
    assert t[2..] == "\"";
    NonWordHead('"', "");
    NonWordHead('"', "a:\"");
  }
}

=== FILE: process.dfy ===
/** The second half of validate_and_apply: for each declaration, read the table's
    current tags, build the change map from the declared columns and, only when the map
    is non-empty, submit the schema sync. */
module Process {
  import opened Results
  import opened TagOrder
  import opened TagDiff
  import opened Schema
  import opened Warehouse
  import opened Dataform
  import opened Declarations

  const POLICY_TAGS_KEY := "bigqueryPolicyTags"

  predicate OccursAt(needle: string, s: string, i: int) {
    0 <= i && i + |needle| <= |s| && s[i..i + |needle|] == needle
  }

  /** `needle` occurs in `s`: Python's `in` on two strings. */
  predicate IsSubstring(needle: string, s: string) {
    exists i :: 0 <= i <= |s| - |needle| && OccursAt(needle, s, i)
  }

  /** `'bigqueryPolicyTags' in column_def` with Python's `in` for the value's type: a key
      of a dict, an element of a list, a substring of a string. For a number, a boolean
      or null the test raises a TypeError (None here). */
  function DeclaresTags(columnDef: Json): Option<bool> {
    match columnDef
    case JObj(fields) => Some(POLICY_TAGS_KEY in fields)
    case JArr(items) => Some(JStr(POLICY_TAGS_KEY) in items)
    case JStr(s) => Some(IsSubstring(POLICY_TAGS_KEY, s))
    case _ => None
  }

  /** The tags `set(...)` sees in a declared value: the elements of a list of strings, or
      the one-character strings of a string. Anything else is None. */
  function TagList(v: Json): Option<seq<string>> {
    match v
    case JArr(items) =>
      if forall k :: 0 <= k < |items| ==> items[k].JStr? then
        Some(seq(|items|, k requires 0 <= k < |items| && items[k].JStr? => items[k].s))
      else None
    case JStr(s) => Some(seq(|s|, k requires 0 <= k < |s| => [s[k]]))
    case _ => None
  }

  /** The desired tags of a column BigQuery has: None when its definition declares none;
      an error when the `in` test or the lookup `column_def['bigqueryPolicyTags']`
      raises (a list or string definition that passes the test cannot be indexed by a
      key), or when the value is not a list of strings or a string. */
  function DesiredTags(tableId: string, columnDef: Json): Result<Option<seq<string>>> {
    match DeclaresTags(columnDef)
    case None => Err(ColumnTypeError(tableId))
    case Some(false) => Ok(None)
    case Some(true) =>
      if !columnDef.JObj? then Err(ColumnTypeError(tableId))
      else
        match TagList(columnDef.fields[POLICY_TAGS_KEY])
        case None => Err(ColumnTypeError(tableId))
        case Some(tags) => Ok(Some(tags))
  }

  /** A declared column the table has, whose declared tags raise an error. */
  predicate BadColumn(tableId: string, columns: map<string, Json>, config: map<string, seq<string>>, c: string) {
    c in columns && c in config && DesiredTags(tableId, columns[c]).Err?
  }

  /** The tags declared for column `c`, when BigQuery has the column and its definition
      declares them without error. */
  function DeclaredFor(tableId: string, columns: map<string, Json>, config: map<string, seq<string>>, c: string): Option<seq<string>> {
    if c in columns && c in config && DesiredTags(tableId, columns[c]).Ok? then DesiredTags(tableId, columns[c]).value else None
  }

  /** The change map of one table: an error when a column BigQuery has declares its
      tags in a way that raises; otherwise one entry per column that needs changes, as
      `ChangeMapEntries` states. */
  function ChangeMap(tableId: string, columns: map<string, Json>, config: map<string, seq<string>>): (r: Result<map<string, Diff>>)
    ensures r.Err? <==> exists c :: BadColumn(tableId, columns, config, c)
    ensures r.Err? ==> r.error == ColumnTypeError(tableId)
  {
    if exists c :: c in columns && BadColumn(tableId, columns, config, c) then Err(ColumnTypeError(tableId))
    else
      Ok(map c | c in columns && c in config && DeclaredFor(tableId, columns, config, c).Some?
                 && !ComparePolicyTagLists(DeclaredFor(tableId, columns, config, c).value, config[c]).identical
             :: ComparePolicyTagLists(DeclaredFor(tableId, columns, config, c).value, config[c]))
  }

  /** A column gets an entry exactly when BigQuery has it, its definition declares tags,
      and the declared tag set differs from the current one; the entry is the comparison
      of the two and is never empty. */
  lemma ChangeMapEntries(tableId: string, columns: map<string, Json>, config: map<string, seq<string>>, c: string)
    requires ChangeMap(tableId, columns, config).Ok?
    ensures var m := ChangeMap(tableId, columns, config).value;
      c in m <==> c in config && DeclaredFor(tableId, columns, config, c).Some?
                  && Elems(DeclaredFor(tableId, columns, config, c).value) != Elems(config[c])
    ensures var m := ChangeMap(tableId, columns, config).value;
      c in m ==> m[c] == ComparePolicyTagLists(DeclaredFor(tableId, columns, config, c).value, config[c])
                 && |m[c].changes| > 0
  {
  }

  /** Columns of the definition that BigQuery does not have change nothing, even when
      their definitions would raise. */
  lemma ChangeMapIgnoresUnknownColumns(tableId: string, columns: map<string, Json>, config: map<string, seq<string>>)
    ensures ChangeMap(tableId, columns, config)
         == ChangeMap(tableId, map c | c in columns && c in config :: columns[c], config)
  {
    var known := map c | c in columns && c in config :: columns[c];
    assert forall c :: BadColumn(tableId, columns, config, c) <==> BadColumn(tableId, known, config, c);
    var a := ChangeMap(tableId, columns, config);
    var b := ChangeMap(tableId, known, config);
    assert a.Ok? <==> b.Ok?;
    if a.Ok? {
      forall c ensures (c in a.value <==> c in b.value) && (c in a.value ==> a.value[c] == b.value[c]) {
        assert DeclaredFor(tableId, columns, config, c) == DeclaredFor(tableId, known, config, c);
      }
      assert a.value.Keys == b.value.Keys;
      assert a.value == b.value;
    }
  }

  /** What the run plans for one table: read the table's config, insist that the
      definition has a `columns` mapping, then build the change map. */
  function PlannedChanges(wh: Warehouse, decl: Declaration): (r: Result<map<string, Diff>>)
    ensures r.Ok? ==> decl.tableId in wh.tables && "columns" in decl.definition && decl.definition["columns"].JObj?
    ensures decl.tableId !in wh.tables ==> r == Err(TableNotFound(decl.tableId))
    ensures decl.tableId in wh.tables && "columns" !in decl.definition ==> r == Err(MissingColumns(decl.tableId))
    ensures decl.tableId in wh.tables && "columns" in decl.definition && !decl.definition["columns"].JObj? ==>
      r == Err(ColumnsNotMapping(decl.tableId))
  {
    var config :- GetBigqueryTableConfig(wh, decl.tableId);
    if "columns" !in decl.definition then Err(MissingColumns(decl.tableId))
    else
      match decl.definition["columns"]
      case JObj(columns) => ChangeMap(decl.tableId, columns, config)
      case _ => Err(ColumnsNotMapping(decl.tableId))
  }

  /** The tables a call trace reads. */
  function ReadTables(calls: seq<Call>): set<string> {
    if |calls| == 0 then {}
    else (if calls[0].GetTable? then {calls[0].tableId} else {}) + ReadTables(calls[1..])
  }

  /** The tables a call trace submits schema updates for. */
  function UpdatedTables(calls: seq<Call>): set<string> {
    if |calls| == 0 then {}
    else (if calls[0].UpdateTable? then {calls[0].tableId} else {}) + UpdatedTables(calls[1..])
  }

  lemma {:induction false} TablesOfConcat(a: seq<Call>, b: seq<Call>)
    ensures ReadTables(a + b) == ReadTables(a) + ReadTables(b)
    ensures UpdatedTables(a + b) == UpdatedTables(a) + UpdatedTables(b)
    decreases |a|
  {
    if |a| == 0 {
      assert a + b == b;
    } else {
      assert (a + b)[1..] == a[1..] + b;
      TablesOfConcat(a[1..], b);
    }
  }

  /** The two traces one table can produce: a lone read, or a read followed by the
      sync's own read and update. */
  lemma TraceTables(t: string, schema: seq<SchemaField>)
    ensures ReadTables([GetTable(t)]) == {t} && UpdatedTables([GetTable(t)]) == {}
    ensures var calls := [GetTable(t), GetTable(t), UpdateTable(t, schema)];
      ReadTables(calls) == {t} && UpdatedTables(calls) == {t}
  {
    var last := [UpdateTable(t, schema)];
    var tail := [GetTable(t)] + last;
    var calls := [GetTable(t)] + tail;
    assert last[1..] == [] && tail[1..] == last && calls[1..] == tail && [GetTable(t)][1..] == [];
    assert ReadTables(last) == {} && UpdatedTables(last) == {t};
    assert ReadTables(tail) == {t} && UpdatedTables(tail) == {t};
    assert ReadTables(calls) == {t} && UpdatedTables(calls) == {t};
    assert calls == [GetTable(t), GetTable(t), UpdateTable(t, schema)];
  }

  lemma SyncWithoutChanges(schema: seq<SchemaField>)
    ensures SyncSchema(schema, map[]) == schema
  {
    var r := SyncSchema(schema, map[]);
    assert forall i :: 0 <= i < |r| ==> r[i] == schema[i];
  }

  /** One iteration of the per-table loop. The table is read first; the schema update is
      issued, for this table only, exactly when the planned change map is non-empty. A
      failure leaves the warehouse as it was; on success the table's schema is the
      schema synced with the planned changes. */
  function ReconcileTable(wh: Warehouse, decl: Declaration): (r: Run)
    ensures |r.calls| > 0 && r.calls[0] == GetTable(decl.tableId)
    ensures ReadTables(r.calls) == {decl.tableId}
    ensures UpdatedTables(r.calls) == if PlannedChanges(wh, decl).Ok? && |PlannedChanges(wh, decl).value| > 0 then {decl.tableId} else {}
    ensures PlannedChanges(wh, decl).Err? ==> r.status == Aborted(PlannedChanges(wh, decl).error)
    ensures PlannedChanges(wh, decl) == Ok(map[]) ==> r == Run(Completed, wh, [GetTable(decl.tableId)])
    ensures r.status.Aborted? ==> r.warehouse == wh
    ensures r.warehouse.rejectsWrites == wh.rejectsWrites && r.warehouse.tables.Keys == wh.tables.Keys
    ensures forall t :: t in wh.tables && t != decl.tableId ==> r.warehouse.tables[t] == wh.tables[t]
    ensures UpdatedTables(r.calls) != {} ==> (r.status.Completed? <==> decl.tableId !in wh.rejectsWrites)
    ensures r.status.Completed? ==>
      && PlannedChanges(wh, decl).Ok?
      && decl.tableId in wh.tables
      && r.warehouse.tables[decl.tableId] == SyncSchema(wh.tables[decl.tableId], PlannedChanges(wh, decl).value)
  {
    var read := GetTable(decl.tableId);
    match PlannedChanges(wh, decl)
    case Err(e) =>
      TraceTables(decl.tableId, []);
      Run(Aborted(e), wh, [read])
    case Ok(changes) =>
      if |changes| == 0 then
        SyncWithoutChanges(wh.tables[decl.tableId]);
        assert changes == map[];
        TraceTables(decl.tableId, []);
        Run(Completed, wh, [read])
      else
        var sync := SyncBigqueryColumnPolicyTags(wh, decl.tableId, changes);
        var calls := [read] + sync.calls;
        assert calls == [read, read, UpdateTable(decl.tableId, SyncSchema(wh.tables[decl.tableId], changes))];
        TraceTables(decl.tableId, SyncSchema(wh.tables[decl.tableId], changes));
        Run(sync.status, sync.warehouse, calls)
  }

  /** The tables the declarations target. */
  function DeclaredTables(decls: seq<Declaration>): set<string> {
    set k | 0 <= k < |decls| :: decls[k].tableId
  }

  lemma DeclaredTablesCons(decls: seq<Declaration>)
    requires |decls| > 0
    ensures DeclaredTables(decls) == {decls[0].tableId} + DeclaredTables(decls[1..])
  {
    assert forall k :: 1 <= k < |decls| ==> decls[1..][k - 1] == decls[k];
  }

  /** A declaration the run cannot plan against a warehouse holding `tables`, whatever
      their schemas: its table is missing, or its definition has no `columns` mapping. */
  predicate Unplannable(tables: set<string>, decl: Declaration) {
    decl.tableId !in tables || "columns" !in decl.definition || !decl.definition["columns"].JObj?
  }

  /** The per-table loop: tables in declaration order, stopping at the first failure.
      Only declared tables are updated, a completed loop has read every declared table,
      and every other table keeps its schema. A failure of the first table is the
      run's result; `ReconcileAllStep` states the same for every later table. */
  function ReconcileAll(wh: Warehouse, decls: seq<Declaration>): (r: Run)
    ensures |decls| == 0 ==> r == Run(Completed, wh, [])
    ensures |decls| > 0 ==> |r.calls| > 0 && r.calls[0] == GetTable(decls[0].tableId)
    ensures |decls| > 0 && ReconcileTable(wh, decls[0]).status.Aborted? ==> r == ReconcileTable(wh, decls[0])
    ensures ReadTables(r.calls) <= DeclaredTables(decls)
    ensures UpdatedTables(r.calls) <= DeclaredTables(decls)
    ensures r.status.Completed? ==> ReadTables(r.calls) == DeclaredTables(decls)
    ensures r.warehouse.rejectsWrites == wh.rejectsWrites && r.warehouse.tables.Keys == wh.tables.Keys
    ensures forall t :: t in wh.tables && t !in DeclaredTables(decls) ==> r.warehouse.tables[t] == wh.tables[t]
    decreases |decls|
  {
    if |decls| == 0 then Run(Completed, wh, [])
    else
      var first := ReconcileTable(wh, decls[0]);
      DeclaredTablesCons(decls);
      if first.status.Aborted? then first
      else
        var rest := ReconcileAll(first.warehouse, decls[1..]);
        TablesOfConcat(first.calls, rest.calls);
        Run(rest.status, rest.warehouse, first.calls + rest.calls)
  }

  /** A declaration that cannot be planned aborts the whole run, wherever it stands. */
  lemma {:induction false} ReconcileAllAbortsOnUnplannable(wh: Warehouse, decls: seq<Declaration>, k: int)
    requires 0 <= k < |decls| && Unplannable(wh.tables.Keys, decls[k])
    ensures ReconcileAll(wh, decls).status.Aborted?
    decreases |decls|
  {
    var first := ReconcileTable(wh, decls[0]);
    if !first.status.Aborted? {
      assert k != 0;
      assert decls[1..][k - 1] == decls[k];
      ReconcileAllAbortsOnUnplannable(first.warehouse, decls[1..], k - 1);
    }
  }

  lemma PrefixTail(decls: seq<Declaration>, j: nat)
    requires j < |decls|
    ensures decls[..j + 1][1..] == decls[1..][..j]
  {
  }

  /** An aborted run stops at the failing declaration: it has read the tables of a
      prefix of the declarations, the failing one last, and none after it. */
  lemma {:induction false} ReconcileAllAbortsAtPrefix(wh: Warehouse, decls: seq<Declaration>)
    ensures ReconcileAll(wh, decls).status.Aborted? ==>
      exists j :: 1 <= j <= |decls| && ReadTables(ReconcileAll(wh, decls).calls) == DeclaredTables(decls[..j])
    decreases |decls|
  {
    if |decls| > 0 {
      var first := ReconcileTable(wh, decls[0]);
      if first.status.Aborted? {
        DeclaredTablesCons(decls[..1]);
        assert decls[..1][1..] == [];
        assert ReadTables(ReconcileAll(wh, decls).calls) == DeclaredTables(decls[..1]);
      } else {
        var rest := ReconcileAll(first.warehouse, decls[1..]);
        ReconcileAllAbortsAtPrefix(first.warehouse, decls[1..]);
        if rest.status.Aborted? {
          var j :| 1 <= j <= |decls[1..]| && ReadTables(rest.calls) == DeclaredTables(decls[1..][..j]);
          TablesOfConcat(first.calls, rest.calls);
          DeclaredTablesCons(decls[..j + 1]);
          PrefixTail(decls, j);
          assert ReadTables(ReconcileAll(wh, decls).calls) == DeclaredTables(decls[..j + 1]);
        }
      }
    }
  }

  /** When every declaration plans no change, the run reads each table once, writes
      nothing and completes with the warehouse as it was. */
  lemma {:induction false} ReconcileAllSettled(wh: Warehouse, decls: seq<Declaration>)
    requires forall k :: 0 <= k < |decls| ==> PlannedChanges(wh, decls[k]) == Ok(map[])
    ensures var r := ReconcileAll(wh, decls);
      r.status.Completed? && r.warehouse == wh && UpdatedTables(r.calls) == {}
    decreases |decls|
  {
    if |decls| > 0 {
      var first := ReconcileTable(wh, decls[0]);
      assert first == Run(Completed, wh, [GetTable(decls[0].tableId)]);
      assert forall k :: 1 <= k < |decls| ==> decls[1..][k - 1] == decls[k];
      ReconcileAllSettled(wh, decls[1..]);
      TablesOfConcat(first.calls, ReconcileAll(wh, decls[1..]).calls);
    }
  }

  /** No two columns of the schema share a name. */
  predicate DistinctColumns(schema: seq<SchemaField>) {
    forall a, b :: 0 <= a < b < |schema| ==> schema[a].name != schema[b].name
  }

  /** The tags the declaration asks for on column `c` of the table's current schema. */
  function DeclaredTags(wh: Warehouse, decl: Declaration, c: string): Option<seq<string>>
    requires PlannedChanges(wh, decl).Ok?
  {
    DeclaredFor(decl.tableId, decl.definition["columns"].fields, TableConfig(wh.tables[decl.tableId]), c)
  }

  /** Syncing keeps every column's name, so the column set and its distinctness survive. */
  lemma SyncKeepsNames(schema: seq<SchemaField>, changes: map<string, Diff>)
    ensures ColumnNames(SyncSchema(schema, changes)) == ColumnNames(schema)
    ensures DistinctColumns(schema) ==> DistinctColumns(SyncSchema(schema, changes))
  {
    var after := SyncSchema(schema, changes);
    assert forall i :: 0 <= i < |after| ==> after[i].name == schema[i].name;
    forall c | c in ColumnNames(after) ensures c in ColumnNames(schema) {
      var i :| 0 <= i < |after| && after[i].name == c;
      assert schema[i].name == c;
    }
    forall c | c in ColumnNames(schema) ensures c in ColumnNames(after) {
      var i :| 0 <= i < |schema| && schema[i].name == c;
      assert after[i].name == c;
    }
  }

  /** Per column, for the schema synced with its change map: a column with declared
      tags ends with exactly that tag set; a column whose tags already match, or that
      declares none, is left as it was; a rebuilt column keeps name, type, mode,
      description and nested fields and loses the attributes the rebuild does not name. */
  lemma SyncSettlesColumn(tableId: string, columns: map<string, Json>, before: seq<SchemaField>, i: int)
    requires ChangeMap(tableId, columns, TableConfig(before)).Ok?
    requires DistinctColumns(before) && 0 <= i < |before|
    ensures var after := SyncSchema(before, ChangeMap(tableId, columns, TableConfig(before)).value);
      var declared := DeclaredFor(tableId, columns, TableConfig(before), before[i].name);
      && |after| == |before|
      && SameExceptTags(after[i], before[i])
      && (declared.None? ==> after[i] == before[i])
      && (declared.Some? && Elems(declared.value) == Elems(CurrentTags(before[i])) ==> after[i] == before[i])
      && (declared.Some? && Elems(declared.value) != Elems(CurrentTags(before[i])) ==> after[i].others == map[])
      && (declared.Some? && NoDup(CurrentTags(before[i])) ==> Elems(CurrentTags(after[i])) == Elems(declared.value))
  {
    var config := TableConfig(before);
    var planned := ChangeMap(tableId, columns, config).value;
    var c := before[i].name;
    TableConfigDistinct(before, i);
    ChangeMapEntries(tableId, columns, config, c);
    var declared := DeclaredFor(tableId, columns, config, c);
    if c in planned && NoDup(CurrentTags(before[i])) {
      DiffReconciles(declared.value, CurrentTags(before[i]));
    }
  }

  /** Every column BigQuery has already carries the tag set declared for it. */
  predicate TableSettled(tableId: string, columns: map<string, Json>, config: map<string, seq<string>>) {
    forall c :: c in config && DeclaredFor(tableId, columns, config, c).Some? ==>
      Elems(DeclaredFor(tableId, columns, config, c).value) == Elems(config[c])
  }

  /** A table whose declared columns are settled needs no changes. */
  lemma ChangeMapSettled(tableId: string, columns: map<string, Json>, config: map<string, seq<string>>)
    requires ChangeMap(tableId, columns, config).Ok?
    requires TableSettled(tableId, columns, config)
    ensures ChangeMap(tableId, columns, config) == Ok(map[])
  {
    var m := ChangeMap(tableId, columns, config).value;
    forall c ensures c !in m {
      ChangeMapEntries(tableId, columns, config, c);
    }
    assert m == map[];
  }

  /** The change map depends on the current tags only through which columns exist and
      their tag lists: with the same column names, it fails for one config iff for the other. */
  lemma ChangeMapSameColumns(tableId: string, columns: map<string, Json>, config: map<string, seq<string>>, config1: map<string, seq<string>>)
    requires config.Keys == config1.Keys
    ensures ChangeMap(tableId, columns, config).Ok? <==> ChangeMap(tableId, columns, config1).Ok?
    ensures forall c :: DeclaredFor(tableId, columns, config1, c) == DeclaredFor(tableId, columns, config, c)
  {
    assert forall c :: BadColumn(tableId, columns, config1, c) <==> BadColumn(tableId, columns, config, c);
  }

  /** The conditions under which syncing a table settles it: the change map can be
      built, column names are distinct and no column lists a tag twice. */
  predicate Reconcilable(tableId: string, columns: map<string, Json>, before: seq<SchemaField>) {
    && ChangeMap(tableId, columns, TableConfig(before)).Ok?
    && DistinctColumns(before)
    && forall i :: 0 <= i < |before| ==> NoDup(CurrentTags(before[i]))
  }

  /** The schema a reconcile submits for the table. */
  function Synced(tableId: string, columns: map<string, Json>, before: seq<SchemaField>): seq<SchemaField>
    requires ChangeMap(tableId, columns, TableConfig(before)).Ok?
  {
    SyncSchema(before, ChangeMap(tableId, columns, TableConfig(before)).value)
  }

  /** Column `i` of the synced schema carries the tag set declared for it, as its config
      entry shows. */
  lemma SyncSettlesAt(tableId: string, columns: map<string, Json>, before: seq<SchemaField>, i: int)
    requires Reconcilable(tableId, columns, before) && 0 <= i < |before|
    ensures var after := Synced(tableId, columns, before);
      var c := after[i].name;
      c in TableConfig(after) &&
      (DeclaredFor(tableId, columns, TableConfig(before), c).Some? ==>
         Elems(DeclaredFor(tableId, columns, TableConfig(before), c).value) == Elems(TableConfig(after)[c]))
  {
    var after := Synced(tableId, columns, before);
    SyncKeepsNames(before, ChangeMap(tableId, columns, TableConfig(before)).value);
    TableConfigDistinct(after, i);
    SyncSettlesColumn(tableId, columns, before, i);
  }

  /** The column named `c` in the synced schema carries the tag set declared for it. */
  lemma SyncSettlesName(tableId: string, columns: map<string, Json>, before: seq<SchemaField>, c: string)
    requires Reconcilable(tableId, columns, before)
    requires var config1 := TableConfig(Synced(tableId, columns, before));
      c in config1 && DeclaredFor(tableId, columns, config1, c).Some?
    ensures var config1 := TableConfig(Synced(tableId, columns, before));
      Elems(DeclaredFor(tableId, columns, config1, c).value) == Elems(config1[c])
  {
    var after := Synced(tableId, columns, before);
    SyncKeepsNames(before, ChangeMap(tableId, columns, TableConfig(before)).value);
    ChangeMapSameColumns(tableId, columns, TableConfig(before), TableConfig(after));
    var i :| 0 <= i < |after| && after[i].name == c;
    SyncSettlesAt(tableId, columns, before, i);
  }

  /** After the sync every declared column of the schema carries its declared tag set. */
  lemma SyncSettles(tableId: string, columns: map<string, Json>, before: seq<SchemaField>)
    requires Reconcilable(tableId, columns, before)
    ensures TableSettled(tableId, columns, TableConfig(Synced(tableId, columns, before)))
  {
    var config1 := TableConfig(Synced(tableId, columns, before));
    forall c | c in config1 && DeclaredFor(tableId, columns, config1, c).Some?
      ensures Elems(DeclaredFor(tableId, columns, config1, c).value) == Elems(config1[c])
    {
      SyncSettlesName(tableId, columns, before, c);
    }
  }

  /** The synced schema needs no further changes: its change map is empty. */
  lemma SyncSettlesTable(tableId: string, columns: map<string, Json>, before: seq<SchemaField>)
    requires Reconcilable(tableId, columns, before)
    ensures ChangeMap(tableId, columns, TableConfig(Synced(tableId, columns, before))) == Ok(map[])
  {
    var after := Synced(tableId, columns, before);
    SyncKeepsNames(before, ChangeMap(tableId, columns, TableConfig(before)).value);
    ChangeMapSameColumns(tableId, columns, TableConfig(before), TableConfig(after));
    SyncSettles(tableId, columns, before);
    ChangeMapSettled(tableId, columns, TableConfig(after));
  }

  /** End to end, per column: after a completed reconcile, a column the declaration
      gives tags to carries exactly that tag set, and every other column is unchanged.
      A column whose tags had to change is rebuilt: it keeps name, type, mode,
      description and nested fields, and loses the attributes the rebuild does not name. */
  lemma ReconcileTableColumn(wh: Warehouse, decl: Declaration, i: int)
    requires ReconcileTable(wh, decl).status.Completed?
    requires decl.tableId in wh.tables && 0 <= i < |wh.tables[decl.tableId]|
    requires DistinctColumns(wh.tables[decl.tableId])
    ensures PlannedChanges(wh, decl).Ok?
    ensures var before := wh.tables[decl.tableId];
      var after := ReconcileTable(wh, decl).warehouse.tables[decl.tableId];
      var declared := DeclaredTags(wh, decl, before[i].name);
      && |after| == |before|
      && SameExceptTags(after[i], before[i])
      && (declared.None? ==> after[i] == before[i])
      && (declared.Some? && Elems(declared.value) == Elems(CurrentTags(before[i])) ==> after[i] == before[i])
      && (declared.Some? && Elems(declared.value) != Elems(CurrentTags(before[i])) ==> after[i].others == map[])
      && (declared.Some? && NoDup(CurrentTags(before[i])) ==> Elems(CurrentTags(after[i])) == Elems(declared.value))
  {
    var before := wh.tables[decl.tableId];
    var columns := decl.definition["columns"].fields;
    assert PlannedChanges(wh, decl) == ChangeMap(decl.tableId, columns, TableConfig(before));
    SyncSettlesColumn(decl.tableId, columns, before, i);
  }

  /** A second pass is a no-op: right after a completed reconcile the same declaration
      plans no changes, so the run only reads the table and writes nothing. */
  lemma ReconcileTableTwice(wh: Warehouse, decl: Declaration)
    requires ReconcileTable(wh, decl).status.Completed?
    requires decl.tableId in wh.tables
    requires DistinctColumns(wh.tables[decl.tableId])
    requires forall i :: 0 <= i < |wh.tables[decl.tableId]| ==> NoDup(CurrentTags(wh.tables[decl.tableId][i]))
    ensures var first := ReconcileTable(wh, decl);
      && PlannedChanges(first.warehouse, decl) == Ok(map[])
      && ReconcileTable(first.warehouse, decl) == Run(Completed, first.warehouse, [GetTable(decl.tableId)])
  {
    var first := ReconcileTable(wh, decl);
    var before := wh.tables[decl.tableId];
    var columns := decl.definition["columns"].fields;
    assert PlannedChanges(wh, decl) == ChangeMap(decl.tableId, columns, TableConfig(before));
    assert Reconcilable(decl.tableId, columns, before);
    SyncSettlesTable(decl.tableId, columns, before);
    assert PlannedChanges(first.warehouse, decl) == ChangeMap(decl.tableId, columns, TableConfig(first.warehouse.tables[decl.tableId]));
  }

  /** What the run collects from the workspace: the listing of the base folder, every
      path under it, then the declarations among them. It succeeds exactly when every
      listing succeeds and no path under the folder has a read, parse or missing-key
      problem, and then holds one declaration per declaration file, in walk order. */
  function Collected(env: Env, root: Listing, contents: map<string, string>): (r: Result<seq<Declaration>>)
    ensures root.ListingFailed? ==> r == Err(DirectoryListError(env.baseFolder))
    ensures root.Listed? && !PagesHealthy(root.pages) ==> r.Err? && r.error.DirectoryListError?
    ensures r.Ok? <==> (root.Listed? && PagesHealthy(root.pages)
                        && forall k :: 0 <= k < |PagesLeaves(root.pages)| ==> FileProblem(PagesLeaves(root.pages)[k], contents, env).None?)
    ensures r.Ok? ==> FilesOf(r.value) == DeclarationFiles(PagesLeaves(root.pages), contents)
    ensures r.Ok? ==> forall k :: 0 <= k < |r.value| ==>
      BuiltFrom(r.value[k], contents, env) && r.value[k].file in PagesLeaves(root.pages)
  {
    match RequestDirectory(env.baseFolder, root)
    case Err(e) => Err(e)
    case Ok(pages) =>
      match GetFiles([], pages)
      case Err(e) => Err(e)
      case Ok(files) =>
        assert files == PagesLeaves(pages) by { assert [] + PagesLeaves(pages) == PagesLeaves(pages); }
        match CollectDeclarations(files, contents, env)
        case Err(e) => Err(e)
        case Ok(decls) =>
          CollectKeepsDeclarationFiles(files, contents, env);
          DeclarationFilesIn(files, contents);
          forall k | 0 <= k < |decls| ensures decls[k].file in files {
            assert FilesOf(decls)[k] in DeclarationFiles(files, contents);
          }
          Ok(decls)
  }

  lemma {:induction false} DeclarationFilesIn(files: seq<string>, contents: map<string, string>)
    ensures forall f :: f in DeclarationFiles(files, contents) ==> f in files
  {
    if |files| > 0 {
      DeclarationFilesIn(files[1..], contents);
    }
  }

  /** One turn of the loop: the first declaration's table, then the rest from the
      warehouse it leaves, unless it fails. */
  lemma ReconcileAllCons(wh: Warehouse, decls: seq<Declaration>)
    requires |decls| > 0
    ensures var first := ReconcileTable(wh, decls[0]);
      var rest := ReconcileAll(first.warehouse, decls[1..]);
      ReconcileAll(wh, decls) == if first.status.Aborted? then first
                                 else Run(rest.status, rest.warehouse, first.calls + rest.calls)
  {
  }

  /** Running the loop over `a + b` is running it over `a` and, when that completes,
      over `b` from the warehouse it left: an abort in `a` is the whole run's result. */
  lemma {:induction false} ReconcileAllConcat(wh: Warehouse, a: seq<Declaration>, b: seq<Declaration>)
    ensures var pre := ReconcileAll(wh, a);
      pre.status.Aborted? ==> ReconcileAll(wh, a + b) == pre
    ensures var pre := ReconcileAll(wh, a);
      var rest := ReconcileAll(pre.warehouse, b);
      pre.status.Completed? ==> ReconcileAll(wh, a + b) == Run(rest.status, rest.warehouse, pre.calls + rest.calls)
    decreases |a|
  {
    if |a| == 0 {
      assert a + b == b;
      assert [] + ReconcileAll(wh, b).calls == ReconcileAll(wh, b).calls;
    } else {
      ConcatHeadTail(a, b);
      ReconcileAllCons(wh, a);
      ReconcileAllCons(wh, a + b);
      var first := ReconcileTable(wh, a[0]);
      if !first.status.Aborted? {
        ReconcileAllConcat(first.warehouse, a[1..], b);
        var mid := ReconcileAll(first.warehouse, a[1..]);
        var rest := ReconcileAll(mid.warehouse, b);
        CallsAssoc(first.calls, mid.calls, rest.calls);
      }
    }
  }

  lemma ConcatHeadTail(a: seq<Declaration>, b: seq<Declaration>)
    requires |a| > 0
    ensures (a + b)[0] == a[0] && (a + b)[1..] == a[1..] + b
  {
  }

  lemma CallsAssoc(x: seq<Call>, y: seq<Call>, z: seq<Call>)
    ensures x + (y + z) == (x + y) + z
  {
  }

  /** One step of the loop: once the declarations before `j` have completed, the table
      of declaration `j` is reconciled against the warehouse they left. If it fails, its
      failure ends the whole run and nothing after it is read or written; if it
      completes, the loop carries on from the warehouse it leaves. */
  lemma ReconcileAllStep(wh: Warehouse, decls: seq<Declaration>, j: int)
    requires 0 <= j < |decls|
    ensures var pre := ReconcileAll(wh, decls[..j]);
      var t := ReconcileTable(pre.warehouse, decls[j]);
      pre.status.Completed? && t.status.Aborted? ==>
        ReconcileAll(wh, decls) == Run(t.status, t.warehouse, pre.calls + t.calls)
    ensures var pre := ReconcileAll(wh, decls[..j]);
      var t := ReconcileTable(pre.warehouse, decls[j]);
      pre.status.Completed? && t.status.Completed? ==>
        ReconcileAll(wh, decls[..j + 1]) == Run(Completed, t.warehouse, pre.calls + t.calls)
  {
    var pre := ReconcileAll(wh, decls[..j]);
    var t := ReconcileTable(pre.warehouse, decls[j]);
    SplitAt(decls, j);
    if pre.status.Completed? {
      if t.status.Aborted? {
        ReconcileAllConcat(wh, decls[..j], decls[j..]);
        ReconcileAllCons(pre.warehouse, decls[j..]);
      } else {
        ReconcileAllConcat(wh, decls[..j], [decls[j]]);
        ReconcileAllCons(pre.warehouse, [decls[j]]);
        assert t.calls + [] == t.calls;
      }
    }
  }

  lemma SplitAt(decls: seq<Declaration>, j: int)
    requires 0 <= j < |decls|
    ensures decls == decls[..j] + decls[j..] && decls[j..][0] == decls[j]
    ensures decls[..j + 1] == decls[..j] + [decls[j]] && [decls[j]][1..] == []
  {
  }

  /** The three run-level facts about the loop together, in the form the entry point
      states them. */
  lemma ReconcileAllRunFacts(wh: Warehouse, decls: seq<Declaration>)
    ensures var r := ReconcileAll(wh, decls);
      && ((exists k :: 0 <= k < |decls| && Unplannable(wh.tables.Keys, decls[k])) ==> r.status.Aborted?)
      && (r.status.Aborted? ==> exists j :: 1 <= j <= |decls| && ReadTables(r.calls) == DeclaredTables(decls[..j]))
      && ((forall k :: 0 <= k < |decls| ==> PlannedChanges(wh, decls[k]) == Ok(map[])) ==>
            r.status.Completed? && r.warehouse == wh && UpdatedTables(r.calls) == {})
  {
    var r := ReconcileAll(wh, decls);
    if k :| 0 <= k < |decls| && Unplannable(wh.tables.Keys, decls[k]) {
      ReconcileAllAbortsOnUnplannable(wh, decls, k);
    }
    ReconcileAllAbortsAtPrefix(wh, decls);
    if forall k :: 0 <= k < |decls| ==> PlannedChanges(wh, decls[k]) == Ok(map[]) {
      ReconcileAllSettled(wh, decls);
    }
  }

  /** validate_and_apply: collect the declarations, stop quietly when there are none,
      otherwise reconcile each declared table in turn. Nothing reaches BigQuery unless
      collection succeeds with at least one declaration; only declared tables are
      written, and every other table keeps its schema. A declaration that cannot be
      planned aborts the run, an aborted run has read the tables of a prefix of the
      declarations only, and a run where no declaration plans a change writes nothing. */
  function ValidateAndApply(env: Env, root: Listing, contents: map<string, string>, wh: Warehouse): (r: Run)
    ensures Collected(env, root, contents).Err? ==> r == Run(Aborted(Collected(env, root, contents).error), wh, [])
    ensures |r.calls| == 0 <==> Collected(env, root, contents).Err? || |Collected(env, root, contents).value| == 0
    ensures |r.calls| == 0 ==> r.warehouse == wh
    ensures r.warehouse.rejectsWrites == wh.rejectsWrites && r.warehouse.tables.Keys == wh.tables.Keys
    ensures Collected(env, root, contents).Ok? ==>
      var declared := DeclaredTables(Collected(env, root, contents).value);
      && UpdatedTables(r.calls) <= declared
      && (r.status.Completed? ==> ReadTables(r.calls) == declared)
      && forall t :: t in wh.tables && t !in declared ==> r.warehouse.tables[t] == wh.tables[t]
    ensures Collected(env, root, contents).Ok? ==>
      var decls := Collected(env, root, contents).value;
      && ((exists k :: 0 <= k < |decls| && Unplannable(wh.tables.Keys, decls[k])) ==> r.status.Aborted?)
      && (r.status.Aborted? ==> exists j :: 1 <= j <= |decls| && ReadTables(r.calls) == DeclaredTables(decls[..j]))
      && ((forall k :: 0 <= k < |decls| ==> PlannedChanges(wh, decls[k]) == Ok(map[])) ==>
            r.status.Completed? && r.warehouse == wh && UpdatedTables(r.calls) == {})
  {
    match Collected(env, root, contents)
    case Err(e) => Run(Aborted(e), wh, [])
    case Ok(decls) =>
      if |decls| == 0 then Run(Completed, wh, [])
      else
        var run := ReconcileAll(wh, decls);
        ReconcileAllRunFacts(wh, decls);
        run
  }

  /** The step of the loop, seen from the entry point: once the declarations before
      `j` have completed, a failure of declaration `j`'s table is the run's result;
      nothing after it is read or written. */
  lemma ValidateAndApplyAbortsAt(env: Env, root: Listing, contents: map<string, string>, wh: Warehouse, j: int)
    ensures Collected(env, root, contents).Ok? && 0 <= j < |Collected(env, root, contents).value| ==>
      var decls := Collected(env, root, contents).value;
      var pre := ReconcileAll(wh, decls[..j]);
      var t := ReconcileTable(pre.warehouse, decls[j]);
      pre.status.Completed? && t.status.Aborted? ==>
        ValidateAndApply(env, root, contents, wh) == Run(t.status, t.warehouse, pre.calls + t.calls)
  {
    if Collected(env, root, contents).Ok? && 0 <= j < |Collected(env, root, contents).value| {
      ValidateAndApplyIsTheLoop(env, root, contents, wh);
      ReconcileAllStep(wh, Collected(env, root, contents).value, j);
    }
  }

  /** When every declaration before the last has completed and the last table
      completes too, the run ends there, with that table's update applied. */
  lemma ValidateAndApplyLastStep(env: Env, root: Listing, contents: map<string, string>, wh: Warehouse, decls: seq<Declaration>)
    ensures Collected(env, root, contents) == Ok(decls) && |decls| > 0 ==>
      var pre := ReconcileAll(wh, decls[..|decls| - 1]);
      var t := ReconcileTable(pre.warehouse, decls[|decls| - 1]);
      pre.status.Completed? && t.status.Completed? ==>
        ValidateAndApply(env, root, contents, wh) == Run(Completed, t.warehouse, pre.calls + t.calls)
  {
    if Collected(env, root, contents) == Ok(decls) && |decls| > 0 {
      var j := |decls| - 1;
      var pre := ReconcileAll(wh, decls[..j]);
      var t := ReconcileTable(pre.warehouse, decls[j]);
      if pre.status.Completed? && t.status.Completed? {
        ReconcileAllStep(wh, decls, j);
        WholePrefix(decls, j);
        assert ReconcileAll(wh, decls) == Run(Completed, t.warehouse, pre.calls + t.calls);
        ValidateAndApplyIsTheLoop(env, root, contents, wh);
      }
    }
  }

  lemma WholePrefix(decls: seq<Declaration>, j: int)
    requires j == |decls| - 1
    ensures decls[..j + 1] == decls
  {
  }

  /** With declarations collected, the run is the per-table loop over them. */
  lemma ValidateAndApplyIsTheLoop(env: Env, root: Listing, contents: map<string, string>, wh: Warehouse)
    ensures Collected(env, root, contents).Ok? && |Collected(env, root, contents).value| > 0 ==>
      ValidateAndApply(env, root, contents, wh) == ReconcileAll(wh, Collected(env, root, contents).value)
  {
  }
}

=== FILE: results.dfy ===
/** Failure-compatible wrappers and the failures a reconciliation pass can end with.
    Every exception the Python code raises (and re-raises after logging) becomes an
    `Err` carrying one of the `Error` values below. */
module Results {

  datatype Option<+T> = None | Some(value: T)

  /** The ways a pass aborts. Remote failures name the path or table they concern. */
  datatype Error =
    | DirectoryListError(path: string)   // a directory listing call failed
    | ReadFileError(path: string)        // read_file failed for this path
    | NoObjectFound                      // parse_file: the content has no '{'
    | JsonDecodeError                    // parse_file: json.loads rejected the rewritten text
    | MissingSchema(file: string)        // a declaration without a 'schema' key
    | MissingName(file: string)          // a declaration without a 'name' key
    | MissingColumns(tableId: string)    // a definition without a 'columns' key
    | ColumnsNotMapping(tableId: string) // 'columns' is not a dictionary
    | ColumnTypeError(tableId: string)   // a column's tag declaration raised: the `in` test failed, the
                                         // definition cannot be indexed by key, or the tags are neither
                                         // a list of strings nor a string
    | TableNotFound(tableId: string)     // get_table failed
    | WriteRejected(tableId: string)     // update_table failed

  datatype Result<+T> = Ok(value: T) | Err(error: Error) {

    predicate IsFailure() {
      Err?
    }

    function PropagateFailure<U>(): Result<U>
      requires Err?
    {
      Err(error)
    }

    function Extract(): T
      requires Ok?
    {
      value
    }
  }
}

=== FILE: schema.dfy ===
/** BigQuery schema fields as the tag sync sees them: the column rebuild of
    sync_bigquery_column_policy_tags and the name-to-tags map of get_bigquery_table_config. */
module Schema {
  import opened Results
  import opened TagOrder
  import opened TagDiff

  /** `bigquery.PolicyTagList`: the resource names of a column's policy tags. */
  datatype PolicyTagList = PolicyTagList(names: seq<string>)

  /** `bigquery.SchemaField`: the attributes the sync passes on when it rebuilds a column,
      `fields` holding the nested sub-fields of a RECORD column, and `others` standing for
      every attribute it does not pass on (maximum length, precision, scale, default value
      expression, ...), keyed by attribute name. */
  datatype SchemaField = SchemaField(
    name: string,
    fieldType: string,
    mode: string,
    description: Option<string>,
    policyTags: Option<PolicyTagList>,
    fields: seq<SchemaField>,
    others: map<string, string>)

  /** The tag names on a column, the empty list when it has no policy tags. */
  function CurrentTags(f: SchemaField): seq<string> {
    match f.policyTags
    case None => []
    case Some(p) => p.names
  }

  /** The policy-tag attribute of a rebuilt column: none at all for an empty list. */
  function PolicyTagsFor(tags: seq<string>): (p: Option<PolicyTagList>)
    ensures p.None? <==> |tags| == 0
    ensures p.Some? ==> p.value.names == tags
  {
    if |tags| > 0 then Some(PolicyTagList(tags)) else None
  }

  /** Two fields agree on every attribute a rebuilt column is given from the old one:
      all except the policy tags and `others`. */
  predicate SameExceptTags(a: SchemaField, b: SchemaField) {
    && a.name == b.name
    && a.fieldType == b.fieldType
    && a.mode == b.mode
    && a.description == b.description
    && a.fields == b.fields
  }

  /** A targeted column: the diff folded over its current tags; name, type, mode,
      description and nested fields kept, the attributes the constructor call does not
      name back at their defaults. */
  function RebuildField(f: SchemaField, d: Diff): (g: SchemaField)
    ensures SameExceptTags(g, f)
    ensures g.others == map[]
    ensures CurrentTags(g) == ApplyChanges(CurrentTags(f), d.changes)
    ensures g.policyTags.None? <==> |CurrentTags(g)| == 0
  {
    SchemaField(f.name, f.fieldType, f.mode, f.description,
                PolicyTagsFor(ApplyChanges(CurrentTags(f), d.changes)), f.fields, map[])
  }

  /** The schema the sync submits: same columns in the same order; a column named in
      `tagChanges` is rebuilt with its folded tags and loses the attributes the rebuild
      does not name, every other column is copied as it is. */
  function SyncSchema(schema: seq<SchemaField>, tagChanges: map<string, Diff>): (r: seq<SchemaField>)
    ensures |r| == |schema|
    ensures forall i :: 0 <= i < |r| && schema[i].name !in tagChanges ==> r[i] == schema[i]
    ensures forall i :: 0 <= i < |r| && schema[i].name in tagChanges ==>
      && SameExceptTags(r[i], schema[i])
      && r[i].others == map[]
      && CurrentTags(r[i]) == ApplyChanges(CurrentTags(schema[i]), tagChanges[schema[i].name].changes)
      && (r[i].policyTags.None? <==> |CurrentTags(r[i])| == 0)
  {
    seq(|schema|, i requires 0 <= i < |schema| =>
      if schema[i].name in tagChanges then RebuildField(schema[i], tagChanges[schema[i].name]) else schema[i])
  }

  /** The column names of a schema. */
  function ColumnNames(schema: seq<SchemaField>): set<string> {
    set i | 0 <= i < |schema| :: schema[i].name
  }

  /** Keys of `tagChanges` that name no column play no part in the rebuilt schema. */
  lemma SyncIgnoresUnknownColumns(schema: seq<SchemaField>, tagChanges: map<string, Diff>)
    ensures SyncSchema(schema, tagChanges)
         == SyncSchema(schema, map k | k in tagChanges && k in ColumnNames(schema) :: tagChanges[k])
  {
    var restricted := map k | k in tagChanges && k in ColumnNames(schema) :: tagChanges[k];
    var a := SyncSchema(schema, tagChanges);
    var b := SyncSchema(schema, restricted);
    forall i | 0 <= i < |schema| ensures a[i] == b[i] {
      assert schema[i].name in ColumnNames(schema);
    }
  }

  /** No later column carries the same name as column `i`. */
  predicate LastWithName(schema: seq<SchemaField>, i: int)
    requires 0 <= i < |schema|
  {
    forall j :: i < j < |schema| ==> schema[j].name != schema[i].name
  }

  lemma ColumnNamesSnoc(schema: seq<SchemaField>)
    requires |schema| > 0
    ensures ColumnNames(schema) == ColumnNames(schema[..|schema| - 1]) + {schema[|schema| - 1].name}
  {
    var init := schema[..|schema| - 1];
    forall x | x in ColumnNames(schema) ensures x in ColumnNames(init) + {schema[|schema| - 1].name} {
      var i :| 0 <= i < |schema| && schema[i].name == x;
      if i < |schema| - 1 { assert init[i] == schema[i]; }
    }
    forall x | x in ColumnNames(init) ensures x in ColumnNames(schema) {
      var i :| 0 <= i < |init| && init[i].name == x;
      assert schema[i] == init[i];
    }
  }

  /** get_bigquery_table_config: one entry per column name. Its values are stated by
      `TableConfigLastWins`. */
  function TableConfig(schema: seq<SchemaField>): (m: map<string, seq<string>>)
    ensures m.Keys == ColumnNames(schema)
    decreases |schema|
  {
    if |schema| == 0 then map[]
    else
      ColumnNamesSnoc(schema);
      TableConfig(schema[..|schema| - 1])[schema[|schema| - 1].name := CurrentTags(schema[|schema| - 1])]
  }

  /** Each entry holds the column's tag names (the empty list when it has none); for a
      repeated name the last column wins, as with repeated assignment into a dict. */
  lemma {:induction false} TableConfigLastWins(schema: seq<SchemaField>, i: int)
    requires 0 <= i < |schema| && LastWithName(schema, i)
    ensures schema[i].name in TableConfig(schema)
    ensures TableConfig(schema)[schema[i].name] == CurrentTags(schema[i])
    decreases |schema|
  {
    assert schema[i].name in ColumnNames(schema);
    if i < |schema| - 1 {
      var init := schema[..|schema| - 1];
      assert init[i] == schema[i];
      assert LastWithName(init, i) by {
        forall j | i < j < |init| ensures init[j].name != init[i].name {
          assert init[j] == schema[j];
        }
      }
      TableConfigLastWins(init, i);
    }
  }

  /** With distinct column names every column's own tags are in the config. */
  lemma TableConfigDistinct(schema: seq<SchemaField>, i: int)
    requires 0 <= i < |schema|
    requires forall a, b :: 0 <= a < b < |schema| ==> schema[a].name != schema[b].name
    ensures schema[i].name in TableConfig(schema)
    ensures TableConfig(schema)[schema[i].name] == CurrentTags(schema[i])
  {
    TableConfigLastWins(schema, i);
  }
}

=== FILE: tag_diff.dfy ===
/** The tag differ (compare_policy_tag_lists) and the per-column tag fold of
    sync_bigquery_column_policy_tags, with the properties that make a pass converge:
    the fold of a diff reaches the desired set, and folding it again changes nothing. */
module TagDiff {
  import opened TagOrder

  const ADD: string := "add"
  const REMOVE: string := "remove"

  /** One entry of a diff's `changes` list, `{'action': ..., 'tag_name': ...}`. The action
      stays a string: the applier has a branch for actions other than "add" and "remove". */
  datatype Change = Change(action: string, tagName: string)

  /** What compare_policy_tag_lists returns: the `changes` list and the `match` flag. */
  datatype Diff = Diff(changes: seq<Change>, identical: bool)

  /** One change per tag, all with the same action, in the tags' order. */
  function Entries(action: string, tags: seq<string>): (r: seq<Change>)
    ensures |r| == |tags|
    ensures forall i :: 0 <= i < |r| ==> r[i].action == action && r[i].tagName == tags[i]
  {
    seq(|tags|, i requires 0 <= i < |tags| => Change(action, tags[i]))
  }

  /** The tag names of the changes carrying `action`, in order. */
  function TagsWith(cs: seq<Change>, action: string): seq<string> {
    if |cs| == 0 then []
    else (if cs[0].action == action then [cs[0].tagName] else []) + TagsWith(cs[1..], action)
  }

  /** No tag name occurs in two changes: never added twice, never both added and removed. */
  predicate DistinctNames(cs: seq<Change>) {
    forall i, j :: 0 <= i < j < |cs| ==> cs[i].tagName != cs[j].tagName
  }

  /** The elements of `xs` that are not in `ys`: `set(xs) - set(ys)` as a list. */
  function Minus(xs: seq<string>, ys: seq<string>): (r: seq<string>)
    ensures Elems(r) == Elems(xs) - Elems(ys)
  {
    if |xs| == 0 then []
    else
      assert Elems(xs) == {xs[0]} + Elems(xs[1..]) by {
        assert xs == [xs[0]] + xs[1..];
      }
      var head: seq<string> := if xs[0] in ys then [] else [xs[0]];
      ElemsConcat(head, Minus(xs[1..], ys));
      head + Minus(xs[1..], ys)
  }

  lemma {:induction false} TagsWithConcat(a: seq<Change>, b: seq<Change>, action: string)
    ensures TagsWith(a + b, action) == TagsWith(a, action) + TagsWith(b, action)
    decreases |a|
  {
    if |a| == 0 {
      assert a + b == b;
    } else {
      assert (a + b)[0] == a[0];
      assert (a + b)[1..] == a[1..] + b;
      TagsWithConcat(a[1..], b, action);
    }
  }

  lemma {:induction false} TagsWithEntries(kind: string, tags: seq<string>, action: string)
    ensures TagsWith(Entries(kind, tags), action) == if kind == action then tags else []
    decreases |tags|
  {
    if |tags| > 0 {
      assert Entries(kind, tags)[1..] == Entries(kind, tags[1..]);
      TagsWithEntries(kind, tags[1..], action);
    }
  }

  lemma EmptyElems(s: seq<string>)
    ensures |s| == 0 <==> Elems(s) == {}
  {
    if |s| > 0 {
      assert s[0] in Elems(s);
    }
  }

  /** The add entries followed by the remove entries. */
  function Assemble(adds: seq<string>, removes: seq<string>): seq<Change> {
    Entries(ADD, adds) + Entries(REMOVE, removes)
  }

  lemma AssembleGroups(adds: seq<string>, removes: seq<string>)
    ensures TagsWith(Assemble(adds, removes), ADD) == adds
    ensures TagsWith(Assemble(adds, removes), REMOVE) == removes
    ensures |Assemble(adds, removes)| == |adds| + |removes|
    ensures forall i :: 0 <= i < |Assemble(adds, removes)| ==>
      Assemble(adds, removes)[i].action == ADD || Assemble(adds, removes)[i].action == REMOVE
  {
    TagsWithConcat(Entries(ADD, adds), Entries(REMOVE, removes), ADD);
    TagsWithConcat(Entries(ADD, adds), Entries(REMOVE, removes), REMOVE);
    TagsWithEntries(ADD, adds, ADD);
    TagsWithEntries(ADD, adds, REMOVE);
    TagsWithEntries(REMOVE, removes, ADD);
    TagsWithEntries(REMOVE, removes, REMOVE);
  }

  lemma BothDifferencesEmpty(a: set<string>, b: set<string>)
    ensures a - b == {} && b - a == {} <==> a == b
  {
    if a - b == {} && b - a == {} {
      assert forall x :: x in a <==> x in b by {
        forall x ensures x in a <==> x in b {
          assert x !in a - b && x !in b - a;
        }
      }
    }
  }

  /** compare_policy_tag_lists: the tags to add (desired but not current), sorted, as
      "add" entries, then the tags to remove (current but not desired), sorted, as
      "remove" entries; `identical` exactly when both lists hold the same set of tags. */
  function ComparePolicyTagLists(desired: seq<string>, current: seq<string>): (d: Diff)
    ensures d.identical <==> Elems(desired) == Elems(current)
    ensures d.identical <==> |d.changes| == 0
    ensures forall i :: 0 <= i < |d.changes| ==> d.changes[i].action == ADD || d.changes[i].action == REMOVE
    ensures d.changes == Entries(ADD, TagsWith(d.changes, ADD)) + Entries(REMOVE, TagsWith(d.changes, REMOVE))
    ensures StrictlySorted(TagsWith(d.changes, ADD))
    ensures Elems(TagsWith(d.changes, ADD)) == Elems(desired) - Elems(current)
    ensures StrictlySorted(TagsWith(d.changes, REMOVE))
    ensures Elems(TagsWith(d.changes, REMOVE)) == Elems(current) - Elems(desired)
  {
    var toAdd := SortedSet(Minus(desired, current));
    var toRemove := SortedSet(Minus(current, desired));
    var changes := Assemble(toAdd, toRemove);
    AssembleGroups(toAdd, toRemove);
    EmptyElems(toAdd);
    EmptyElems(toRemove);
    BothDifferencesEmpty(Elems(desired), Elems(current));
    Diff(changes, |changes| == 0)
  }

  /** `tags.index(t)`: the position of the first occurrence of a present tag. */
  function FirstIndex(tags: seq<string>, t: string): (i: nat)
    requires t in tags
    ensures i < |tags| && tags[i] == t && t !in tags[..i]
  {
    if tags[0] == t then 0
    else
      var j := FirstIndex(tags[1..], t);
      assert tags[..j + 1] == [tags[0]] + tags[1..][..j];
      j + 1
  }

  /** `tags.remove(t)` guarded by `t in tags`: drops the first occurrence, if any. */
  function RemoveFirst(tags: seq<string>, t: string): (r: seq<string>)
    ensures t !in tags ==> r == tags
  {
    if |tags| == 0 then tags
    else if tags[0] == t then tags[1..]
    else
      assert tags == [tags[0]] + tags[1..];
      [tags[0]] + RemoveFirst(tags[1..], t)
  }

  /** Removing a present tag cuts out exactly its first occurrence; nothing else moves. */
  lemma {:induction false} RemoveFirstSplits(tags: seq<string>, t: string)
    requires t in tags
    ensures RemoveFirst(tags, t) == tags[..FirstIndex(tags, t)] + tags[FirstIndex(tags, t) + 1..]
    decreases |tags|
  {
    if tags[0] != t {
      var i := FirstIndex(tags[1..], t);
      RemoveFirstSplits(tags[1..], t);
      assert FirstIndex(tags, t) == i + 1;
      assert tags[..i + 1] == [tags[0]] + tags[1..][..i];
      assert tags[i + 1 + 1..] == tags[1..][i + 1..];
    }
  }

  lemma {:induction false} RemoveFirstNoDup(tags: seq<string>, t: string)
    ensures NoDup(tags) ==> NoDup(RemoveFirst(tags, t))
    ensures NoDup(tags) ==> Elems(RemoveFirst(tags, t)) == Elems(tags) - {t}
    decreases |tags|
  {
    if |tags| > 0 && NoDup(tags) {
      assert tags == [tags[0]] + tags[1..];
      NoDupCons(tags[0], tags[1..]);
      ElemsConcat([tags[0]], tags[1..]);
      if tags[0] != t {
        var rest := RemoveFirst(tags[1..], t);
        RemoveFirstNoDup(tags[1..], t);
        assert tags[0] !in Elems(rest);
        NoDupCons(tags[0], rest);
        ElemsConcat([tags[0]], rest);
      }
    }
  }

  /** One action of the fold in sync_bigquery_column_policy_tags. "add" appends the tag
      when it is absent, "remove" drops its first occurrence when present, and any other
      action leaves the list alone. */
  function ApplyChange(tags: seq<string>, c: Change): (r: seq<string>)
    ensures c.action == ADD ==> |tags| <= |r| <= |tags| + 1 && r[..|tags|] == tags && Elems(r) == Elems(tags) + {c.tagName}
    ensures c.action == ADD && c.tagName in tags ==> r == tags
    ensures c.action == ADD && c.tagName !in tags ==> r == tags + [c.tagName]
    ensures c.action == REMOVE ==> r == RemoveFirst(tags, c.tagName)
    ensures c.action != ADD && c.action != REMOVE ==> r == tags
    ensures NoDup(tags) ==> NoDup(r)
    ensures NoDup(tags) && c.action == REMOVE ==> Elems(r) == Elems(tags) - {c.tagName}
  {
    if c.action == ADD then
      if c.tagName !in tags then
        assert (tags + [c.tagName])[..|tags|] == tags;
        tags + [c.tagName]
      else tags
    else if c.action == REMOVE then
      RemoveFirstNoDup(tags, c.tagName);
      RemoveFirst(tags, c.tagName)
    else tags
  }

  /** The fold over a column's `changes` list, in order. */
  function ApplyChanges(tags: seq<string>, cs: seq<Change>): (r: seq<string>)
    ensures NoDup(tags) ==> NoDup(r)
    decreases |cs|
  {
    if |cs| == 0 then tags else ApplyChanges(ApplyChange(tags, cs[0]), cs[1..])
  }

  lemma {:induction false} ApplyChangesConcat(tags: seq<string>, a: seq<Change>, b: seq<Change>)
    ensures ApplyChanges(tags, a + b) == ApplyChanges(ApplyChanges(tags, a), b)
    decreases |a|
  {
    if |a| == 0 {
      assert a + b == b;
    } else {
      assert (a + b)[0] == a[0];
      assert (a + b)[1..] == a[1..] + b;
      ApplyChangesConcat(ApplyChange(tags, a[0]), a[1..], b);
    }
  }

  lemma {:induction false} ApplyAdds(tags: seq<string>, adds: seq<string>)
    requires NoDup(tags)
    ensures Elems(ApplyChanges(tags, Entries(ADD, adds))) == Elems(tags) + Elems(adds)
    decreases |adds|
  {
    if |adds| > 0 {
      assert Entries(ADD, adds)[1..] == Entries(ADD, adds[1..]);
      assert adds == [adds[0]] + adds[1..];
      assert Elems(adds) == {adds[0]} + Elems(adds[1..]);
      ApplyAdds(ApplyChange(tags, Change(ADD, adds[0])), adds[1..]);
    }
  }

  lemma {:induction false} ApplyRemoves(tags: seq<string>, removes: seq<string>)
    requires NoDup(tags)
    ensures Elems(ApplyChanges(tags, Entries(REMOVE, removes))) == Elems(tags) - Elems(removes)
    decreases |removes|
  {
    if |removes| > 0 {
      assert Entries(REMOVE, removes)[1..] == Entries(REMOVE, removes[1..]);
      assert removes == [removes[0]] + removes[1..];
      assert Elems(removes) == {removes[0]} + Elems(removes[1..]);
      ApplyRemoves(ApplyChange(tags, Change(REMOVE, removes[0])), removes[1..]);
    }
  }

  /** Folding the diff over a duplicate-free current list reaches exactly the desired set. */
  lemma DiffReconciles(desired: seq<string>, current: seq<string>)
    requires NoDup(current)
    ensures var r := ApplyChanges(current, ComparePolicyTagLists(desired, current).changes);
      NoDup(r) && Elems(r) == Elems(desired)
  {
    var d := ComparePolicyTagLists(desired, current);
    var adds := TagsWith(d.changes, ADD);
    var removes := TagsWith(d.changes, REMOVE);
    ApplyChangesConcat(current, Entries(ADD, adds), Entries(REMOVE, removes));
    var mid := ApplyChanges(current, Entries(ADD, adds));
    ApplyAdds(current, adds);
    ApplyRemoves(mid, removes);
  }

  /** Adds and removes drawn from disjoint duplicate-free lists name every tag at most once. */
  lemma AssembleDistinct(adds: seq<string>, removes: seq<string>)
    requires NoDup(adds) && NoDup(removes) && Elems(adds) !! Elems(removes)
    ensures DistinctNames(Assemble(adds, removes))
  {
    var cs := Assemble(adds, removes);
    forall i, j | 0 <= i < j < |cs|
      ensures cs[i].tagName != cs[j].tagName
    {
      if i < |adds| && j >= |adds| {
        assert cs[i].tagName == adds[i] && adds[i] in Elems(adds);
        assert cs[j].tagName == removes[j - |adds|] && removes[j - |adds|] in Elems(removes);
      } else if j < |adds| {
        assert cs[i].tagName == adds[i] && cs[j].tagName == adds[j];
      } else {
        assert cs[i].tagName == removes[i - |adds|] && cs[j].tagName == removes[j - |adds|];
      }
    }
  }

  /** The diff never names a tag twice: no tag is added twice, removed twice, or both. */
  lemma DiffNamesDistinct(desired: seq<string>, current: seq<string>)
    ensures DistinctNames(ComparePolicyTagLists(desired, current).changes)
  {
    var d := ComparePolicyTagLists(desired, current);
    var adds := TagsWith(d.changes, ADD);
    var removes := TagsWith(d.changes, REMOVE);
    StrictlySortedNoDup(adds);
    StrictlySortedNoDup(removes);
    AssembleDistinct(adds, removes);
  }

  /** Order and duplicates in either input are irrelevant: the diff depends on the two sets only. */
  lemma DiffDependsOnSetsOnly(d1: seq<string>, c1: seq<string>, d2: seq<string>, c2: seq<string>)
    requires Elems(d1) == Elems(d2) && Elems(c1) == Elems(c2)
    ensures ComparePolicyTagLists(d1, c1) == ComparePolicyTagLists(d2, c2)
  {
    var x := ComparePolicyTagLists(d1, c1);
    var y := ComparePolicyTagLists(d2, c2);
    SortedUnique(TagsWith(x.changes, ADD), TagsWith(y.changes, ADD));
    SortedUnique(TagsWith(x.changes, REMOVE), TagsWith(y.changes, REMOVE));
  }

  /** The tag names the changes mention. */
  function Names(cs: seq<Change>): set<string> {
    set i | 0 <= i < |cs| :: cs[i].tagName
  }

  /** A tag that no change names keeps its membership through the fold. */
  lemma {:induction false} ApplyChangesUntouched(tags: seq<string>, cs: seq<Change>, t: string)
    requires t !in Names(cs)
    ensures t in ApplyChanges(tags, cs) <==> t in tags
    decreases |cs|
  {
    if |cs| > 0 {
      assert cs[0].tagName in Names(cs);
      var next := ApplyChange(tags, cs[0]);
      if cs[0].action == REMOVE && cs[0].tagName in tags {
        var i := FirstIndex(tags, cs[0].tagName);
        RemoveFirstSplits(tags, cs[0].tagName);
        assert tags == tags[..i] + [tags[i]] + tags[i + 1..];
      } else if cs[0].action == ADD {
        assert t in tags ==> t in Elems(tags);
        assert t in next ==> t in Elems(next);
      }
      assert t in next <==> t in tags;
      assert Names(cs[1..]) <= Names(cs) by {
        forall i | 0 <= i < |cs[1..]| ensures cs[1..][i].tagName in Names(cs) {
          assert cs[1..][i] == cs[i + 1];
        }
      }
      ApplyChangesUntouched(next, cs[1..], t);
    }
  }

  /** A list where every "add" tag is present and every "remove" tag absent. */
  predicate Settled(tags: seq<string>, cs: seq<Change>) {
    forall i :: 0 <= i < |cs| ==>
      (cs[i].action == ADD ==> cs[i].tagName in tags) && (cs[i].action == REMOVE ==> cs[i].tagName !in tags)
  }

  /** After the fold, a duplicate-free list is settled with respect to changes naming distinct tags. */
  lemma {:induction false} ApplyChangesSettles(tags: seq<string>, cs: seq<Change>)
    requires NoDup(tags) && DistinctNames(cs)
    ensures Settled(ApplyChanges(tags, cs), cs)
    decreases |cs|
  {
    if |cs| > 0 {
      var next := ApplyChange(tags, cs[0]);
      var r := ApplyChanges(next, cs[1..]);
      ApplyChangesSettles(next, cs[1..]);
      assert cs[0].tagName !in Names(cs[1..]);
      ApplyChangesUntouched(next, cs[1..], cs[0].tagName);
      if cs[0].action == ADD {
        assert cs[0].tagName in Elems(next);
      }
      forall i | 0 < i < |cs|
        ensures (cs[i].action == ADD ==> cs[i].tagName in r) && (cs[i].action == REMOVE ==> cs[i].tagName !in r)
      {
        assert cs[i] == cs[1..][i - 1];
      }
    }
  }

  /** The fold over a settled list changes nothing. */
  lemma {:induction false} ApplyChangesNoOp(tags: seq<string>, cs: seq<Change>)
    requires Settled(tags, cs)
    ensures ApplyChanges(tags, cs) == tags
    decreases |cs|
  {
    if |cs| > 0 {
      assert ApplyChange(tags, cs[0]) == tags;
      assert Settled(tags, cs[1..]) by {
        forall i | 0 <= i < |cs[1..]| ensures cs[1..][i] == cs[i + 1] { }
      }
      ApplyChangesNoOp(tags, cs[1..]);
    }
  }

  /** Folding the same changes twice gives the list that folding them once gives. */
  lemma ApplyChangesIdempotent(tags: seq<string>, cs: seq<Change>)
    requires NoDup(tags) && DistinctNames(cs)
    ensures ApplyChanges(ApplyChanges(tags, cs), cs) == ApplyChanges(tags, cs)
  {
    ApplyChangesSettles(tags, cs);
    ApplyChangesNoOp(ApplyChanges(tags, cs), cs);
  }

  /** A diff's changes, folded a second time, leave the reconciled list as it is. */
  lemma DiffIdempotent(desired: seq<string>, current: seq<string>)
    requires NoDup(current)
    ensures var cs := ComparePolicyTagLists(desired, current).changes;
      ApplyChanges(ApplyChanges(current, cs), cs) == ApplyChanges(current, cs)
  {
    DiffNamesDistinct(desired, current);
    ApplyChangesIdempotent(current, ComparePolicyTagLists(desired, current).changes);
  }
}

=== FILE: tag_order.dfy ===
/** Lists of policy-tag names seen as sets, and Python's ordering of strings.

    `sorted()` on Python strings compares code point by code point, a proper prefix
    coming first; `Below` is that strict order. `SortedSet` gives the one strictly
    increasing list of a collection's distinct elements, which is what
    `sorted(set(...))` produces. */
module TagOrder {

  /** The set of elements of a list: Python's `set(xs)`. */
  function Elems(s: seq<string>): set<string> {
    set x | x in s
  }

  lemma ElemsConcat(a: seq<string>, b: seq<string>)
    ensures Elems(a + b) == Elems(a) + Elems(b)
  {
    assert forall x :: x in a + b <==> x in a || x in b;
  }

  /** No element occurs twice. */
  predicate NoDup(s: seq<string>) {
    forall i, j :: 0 <= i < j < |s| ==> s[i] != s[j]
  }

  lemma NoDupCons(x: string, s: seq<string>)
    ensures NoDup([x] + s) <==> x !in s && NoDup(s)
  {
    var t := [x] + s;
    assert forall i :: 0 <= i < |s| ==> t[i + 1] == s[i];
    if NoDup(t) {
      forall i, j | 0 <= i < j < |s| ensures s[i] != s[j] {
        assert t[i + 1] == s[i] && t[j + 1] == s[j];
      }
      assert forall k :: 0 <= k < |s| ==> t[0] != s[k];
    }
    if x !in s && NoDup(s) {
      forall i, j | 0 <= i < j < |t| ensures t[i] != t[j] {
        if i > 0 { assert t[i] == s[i - 1] && t[j] == s[j - 1]; }
      }
    }
  }

  /** Python's `a < b` on str. */
  predicate Below(a: string, b: string)
    decreases |a|
  {
    if |a| == 0 then |b| > 0
    else |b| > 0 && (a[0] < b[0] || (a[0] == b[0] && Below(a[1..], b[1..])))
  }

  lemma {:induction false} BelowIrreflexive(a: string)
    ensures !Below(a, a)
    decreases |a|
  {
    if |a| > 0 {
      BelowIrreflexive(a[1..]);
    }
  }

  lemma {:induction false} BelowAsymmetric(a: string, b: string)
    requires Below(a, b)
    ensures !Below(b, a)
    decreases |a|
  {
    if |a| > 0 && a[0] == b[0] {
      BelowAsymmetric(a[1..], b[1..]);
    }
  }

  lemma {:induction false} BelowTransitive(a: string, b: string, c: string)
    requires Below(a, b) && Below(b, c)
    ensures Below(a, c)
    decreases |a|
  {
    if |a| > 0 && a[0] == b[0] && b[0] == c[0] {
      BelowTransitive(a[1..], b[1..], c[1..]);
    }
  }

  lemma {:induction false} BelowTotal(a: string, b: string)
    requires a != b
    ensures Below(a, b) || Below(b, a)
    decreases |a|
  {
    if |a| > 0 && |b| > 0 && a[0] == b[0] {
      assert a == [a[0]] + a[1..] && b == [b[0]] + b[1..];
      BelowTotal(a[1..], b[1..]);
    }
  }

  predicate StrictlySorted(s: seq<string>) {
    forall i, j :: 0 <= i < j < |s| ==> Below(s[i], s[j])
  }

  lemma StrictlySortedNoDup(s: seq<string>)
    requires StrictlySorted(s)
    ensures NoDup(s)
  {
    forall i, j | 0 <= i < j < |s|
      ensures s[i] != s[j]
    {
      BelowIrreflexive(s[i]);
    }
  }

  /** Inserts `x` at its place in a strictly sorted list, unless it is already there. */
  function Insert(x: string, s: seq<string>): (r: seq<string>)
    requires StrictlySorted(s)
    ensures StrictlySorted(r)
    ensures Elems(r) == Elems(s) + {x}
  {
    if |s| == 0 then [x]
    else if x == s[0] then s
    else if Below(x, s[0]) then
      assert forall j :: 0 < j < |s| ==> Below(x, s[j]) by {
        forall j | 0 < j < |s| ensures Below(x, s[j]) {
          BelowTransitive(x, s[0], s[j]);
        }
      }
      [x] + s
    else
      BelowTotal(x, s[0]);
      var t := Insert(x, s[1..]);
      assert Elems(s) == {s[0]} + Elems(s[1..]) by {
        assert s == [s[0]] + s[1..];
      }
      assert s == [s[0]] + s[1..];
      forall y | y in t
        ensures Below(s[0], y)
      {
        assert y in Elems(t);
        if y != x {
          assert y in Elems(s[1..]);
          var j :| 0 <= j < |s[1..]| && s[1..][j] == y;
          assert s[j + 1] == y;
        }
      }
      assert Elems([s[0]] + t) == {s[0]} + Elems(t);
      [s[0]] + t
  }

  /** `sorted(set(xs))`: the distinct elements of `xs` in increasing order. */
  function SortedSet(xs: seq<string>): (r: seq<string>)
    ensures StrictlySorted(r)
    ensures Elems(r) == Elems(xs)
  {
    if |xs| == 0 then []
    else
      assert Elems(xs) == {xs[0]} + Elems(xs[1..]) by {
        assert xs == [xs[0]] + xs[1..];
      }
      Insert(xs[0], SortedSet(xs[1..]))
  }

  /** The head of a strictly sorted list is below every other element. */
  lemma SortedHeadIsLeast(a: seq<string>, x: string)
    requires StrictlySorted(a) && x in a
    ensures x == a[0] || Below(a[0], x)
  {
    var k :| 0 <= k < |a| && a[k] == x;
  }

  lemma TailElems(a: seq<string>)
    requires |a| > 0 && NoDup(a)
    ensures Elems(a[1..]) == Elems(a) - {a[0]}
  {
    assert a == [a[0]] + a[1..];
    NoDupCons(a[0], a[1..]);
    ElemsConcat([a[0]], a[1..]);
  }

  /** A set has exactly one strictly sorted listing, so `sorted(set(...))` is canonical. */
  lemma {:induction false} SortedUnique(a: seq<string>, b: seq<string>)
    requires StrictlySorted(a) && StrictlySorted(b)
    requires Elems(a) == Elems(b)
    ensures a == b
    decreases |a|
  {
    assert |b| > 0 ==> b[0] in Elems(b);
    if |a| > 0 {
      assert a[0] in Elems(a);
      SortedHeadIsLeast(b, a[0]);
      SortedHeadIsLeast(a, b[0]);
      if a[0] != b[0] {
        BelowAsymmetric(a[0], b[0]);
      }
      StrictlySortedNoDup(a);
      StrictlySortedNoDup(b);
      TailElems(a);
      TailElems(b);
      assert StrictlySorted(a[1..]) && StrictlySorted(b[1..]);
      SortedUnique(a[1..], b[1..]);
      assert a == [a[0]] + a[1..] && b == [b[0]] + b[1..];
    }
  }
}

=== FILE: warehouse.dfy ===
/** The BigQuery side of the sync as a value: the tables' schemas, the tables whose
    schema updates fail, and the trace of remote calls a step issues. */
module Warehouse {
  import opened Results
  import opened TagDiff
  import opened Schema

  /** The warehouse state the core reads and writes: each table id's current schema.
      An update of a table listed in `rejectsWrites` fails. */
  datatype Warehouse = Warehouse(tables: map<string, seq<SchemaField>>, rejectsWrites: set<string>)

  /** A remote call: `bq_client.get_table(id)` or `bq_client.update_table(table, ['schema'])`. */
  datatype Call = GetTable(tableId: string) | UpdateTable(tableId: string, schema: seq<SchemaField>)

  datatype Status = Completed | Aborted(error: Error)

  /** Where a step ends: its status, the warehouse afterwards and the calls it issued. */
  datatype Run = Run(status: Status, warehouse: Warehouse, calls: seq<Call>)

  /** get_bigquery_table_config: the table's name-to-tags map, or a lookup failure
      when the table does not exist. */
  function GetBigqueryTableConfig(wh: Warehouse, tableId: string): (r: Result<map<string, seq<string>>>)
    ensures r.Ok? <==> tableId in wh.tables
    ensures r.Ok? ==> r.value.Keys == ColumnNames(wh.tables[tableId])
    ensures r.Err? ==> r.error == TableNotFound(tableId)
  {
    if tableId in wh.tables then Ok(TableConfig(wh.tables[tableId])) else Err(TableNotFound(tableId))
  }

  /** sync_bigquery_column_policy_tags: re-fetch the table, rebuild its schema with the
      folded tags and submit a schema-only update. On success only that table's schema
      changes; a failure leaves the warehouse as it was. */
  function SyncBigqueryColumnPolicyTags(wh: Warehouse, tableId: string, tagChanges: map<string, Diff>): (r: Run)
    ensures r.status.Completed? <==> tableId in wh.tables && tableId !in wh.rejectsWrites
    ensures r.status.Aborted? ==> r.warehouse == wh
    ensures r.status.Completed? ==>
      && r.warehouse.rejectsWrites == wh.rejectsWrites
      && r.warehouse.tables.Keys == wh.tables.Keys
      && r.warehouse.tables[tableId] == SyncSchema(wh.tables[tableId], tagChanges)
      && (forall t :: t in wh.tables && t != tableId ==> r.warehouse.tables[t] == wh.tables[t])
    ensures |r.calls| > 0 && r.calls[0] == GetTable(tableId)
    ensures tableId in wh.tables ==> r.calls == [GetTable(tableId), UpdateTable(tableId, SyncSchema(wh.tables[tableId], tagChanges))]
    ensures tableId !in wh.tables ==> r.calls == [GetTable(tableId)] && r.status == Aborted(TableNotFound(tableId))
    ensures tableId in wh.tables && tableId in wh.rejectsWrites ==> r.status == Aborted(WriteRejected(tableId))
  {
    if tableId !in wh.tables then
      Run(Aborted(TableNotFound(tableId)), wh, [GetTable(tableId)])
    else
      var newSchema := SyncSchema(wh.tables[tableId], tagChanges);
      var calls := [GetTable(tableId), UpdateTable(tableId, newSchema)];
      if tableId in wh.rejectsWrites then Run(Aborted(WriteRejected(tableId)), wh, calls)
      else Run(Completed, wh.(tables := wh.tables[tableId := newSchema]), calls)
  }
}
